=== FILE: README.md ===
# SmartPOS browser demo: a Dafny model of its rules

SmartPOS is a static browser demo of a point-of-sale admin panel. It has three scripts:

- a login page (`script.js`);
- a dashboard (`dashboard-script.js`);
- an admin settings page (`settings-script.js`).

Most of the code is DOM and timer glue. This project pulls out the rules underneath and states
them as pure Dafny functions over immutable records, then proves properties about them.

| module | file | models |
|---|---|---|
| `Wrappers` | `wrappers.dfy` | `Option` and `Result` |
| `Text` | `text.dfy` | the JavaScript string operations the scripts rely on: `trim` and the `\s` whitespace set, ASCII case mapping, and `length` counted in UTF-16 code units |
| `SettingsModel` | `settings_model.dfy` | the settings record, its default literal, and the shallow top-level merge `{ ...current, ...parsed }` |
| `SettingsForm` | `settings_form.dfy` | the colour test `/^#[0-9A-F]{6}$/i`, the colour pickers, the company and UI forms, function toggles, the 2 MiB logo gate, `validateForm`, and the rule that dims menu items of disabled functions |
| `SettingsStore` | `settings_store.dfy` | the settings page as a whole: the settings object, the `smartposSettings` storage slot and the four colour pickers; load, save, reset, clear, import, export and initialisation |
| `Login` | `login.dfy` | the email regular expression, login form validation, matching against the three demo accounts, and the submit handler |
| `Dashboard` | `dashboard.dfy` | breadcrumb names, notification icon and colour lookups, the active navigation item, and the sidebar, overlay and scroll-lock flags |
| `Kpi` | `kpi.dfy` | the simulated KPI step and the 20-frame counter animation |

Outside inputs become parameters:

- the viewport width test `innerWidth <= 767` is `isMobile`;
- `confirm` answers are `confirmed`;
- whether `localStorage.setItem` succeeds is `writeOk`;
- `Math.random` draws are `moves` and `up`;
- a picked file is a size plus the data URL the reader produces;
- stored or imported JSON text is what `JSON.parse` makes of it: empty, an object carrying some of the five top-level keys, or text that does not parse.

An `<input type="color">` is modelled with the classic value sanitization for colour inputs: it
only ever holds a valid simple colour (`#` and six hexadecimal digits) in lower case, and
assigning any other value makes it hold `#000000`. This is modelled (`SettingsForm.PickerValue`)
because `updateColorSettings` reads the colour settings back from the pickers.

The model follows the code, including these behaviours:

- The merge is top-level only. An imported `company` replaces the whole company record.
- There is no tax-rate range check or clamp: `parseFloat(...) || 0` is stored as is.
- Reset does not restore the defaults in memory (see Findings).
- A stored text that does not parse makes `loadSettings` throw. There is no fallback to defaults, so page initialisation stops early.
- Import does not persist anything. No per-field validation happens on save.
- `validateForm` is defined but never called by the page. It is modelled as a pure function.

## Model

| member | source | states |
|---|---|---|
| Text.Trim | script.js:97-98 | `trim` removes leading and trailing JavaScript whitespace only: the result is empty exactly when the input is all whitespace, otherwise it starts and ends with non-whitespace, and a string with no whitespace is unchanged |
| Text.TrimSlice | script.js:97-98 | the trimmed string is the stretch of the input that begins right after the leading whitespace, character for character, and only whitespace lies before and after it |
| Text.TrimIdempotent | settings-script.js:572 | trimming twice gives the same result as trimming once |
| Text.LowerCaseIdempotent | settings-script.js:325-332 | lower-casing twice gives the same result as lower-casing once |
| Text.Utf16Length | script.js:110 | `length` counts UTF-16 code units: between the number of characters and twice that, equal to it when every character is in the Basic Multilingual Plane |
| SettingsModel.DefaultSettingsFacts | settings-script.js:6-60 | the default record names "Xyz Computers", has tax rate 10 and no logo, has exactly hrm, salary, loan, sms and usermanagement among its disabled functions (sales enabled), and has three roles |
| SettingsModel.Merge | settings-script.js:85 | each top-level key present in the parsed object replaces that whole sub-record; each absent key keeps its current value |
| SettingsModel.Snapshot | settings-script.js:95 | the serialised settings carry all five top-level keys |
| SettingsModel.Overlay | settings-script.js:475 | the combined effect of two parsed objects: for each of company, branding, functions, ui and users, the later object's entry wins when present, else the earlier one's entry stands, and a key absent from both stays absent |
| SettingsModel.MergeEmptyIsIdentity | settings-script.js:84-86 | merging an object with no keys changes nothing |
| SettingsModel.MergeSnapshot | settings-script.js:85 | merging a full serialised record over any settings yields exactly that record |
| SettingsModel.MergeIdempotent | settings-script.js:85 | merging the same object twice is merging it once |
| SettingsModel.MergeComposes | settings-script.js:85 | two successive merges equal one merge of the two objects overlaid |
| SettingsForm.HexColorIsCaseInsensitiveClass | settings-script.js:331 | under the `i` flag the test accepts `#` followed by six characters whose upper-case forms are in `[0-9A-F]`, which is exactly six hexadecimal digits of either case |
| SettingsForm.HexColorIgnoresCase | settings-script.js:331 | a string passes the colour test exactly when its lower-case form does, and exactly when its upper-case form does |
| SettingsForm.SetColor | settings-script.js:308-313 | one colour slot takes the new value and the other three are unchanged |
| SettingsForm.PickerValue | settings-script.js:325-332 | what a colour picker holds after an assignment: always a valid lower-case colour; a valid colour is kept up to case; anything else becomes `#000000` |
| SettingsForm.PickersFor | settings-script.js:308-313 | the four pickers after the colour settings are copied into them: every one holds a valid colour, each being its setting sanitized |
| SettingsForm.ReadColors | settings-script.js:307-314 | the colour settings become the four picker values; the logo and all other top-level keys are untouched |
| SettingsForm.OnPickerInput | settings-script.js:324-327 | a picker event changes that picker to the sanitized value, leaves the other three, and the colour settings equal the pickers afterwards |
| SettingsForm.OnColorText | settings-script.js:330-335 | a text that fails the colour test changes neither settings nor pickers; a text that passes sets that picker to its lower-case form, leaves the other pickers, and the settings become the old settings with the colours read back from the pickers |
| SettingsForm.ColorEventsKeepColorsValid | settings-script.js:319-336 | after a picker event, or a text event whose text passes the colour test, every colour setting passes the test; after any text event every picker still holds a valid colour |
| SettingsForm.ReadCompany | settings-script.js:239-250 | the company record is rebuilt from the form; an unreadable tax rate becomes 0 and any number read is kept with no range check; the other top-level keys are untouched |
| SettingsForm.ReadUi | settings-script.js:415-422 | the UI record is rebuilt from the four selects; the other top-level keys are untouched |
| SettingsForm.ToggleFunction | settings-script.js:369-374 | for a known key only that function's `enabled` flips (its name and description and every other entry and key stay); an unknown key changes nothing |
| SettingsForm.ToggleTwiceIsIdentity | settings-script.js:369-374 | toggling the same key twice restores the settings |
| SettingsForm.TogglesCommute | settings-script.js:369-374 | toggles of two keys can be applied in either order |
| SettingsForm.UploadLogo | settings-script.js:268-284 | no file changes nothing; a file over 2·1024·1024 bytes is refused with an error toast and the settings kept; otherwise the data URL becomes the logo with a success toast; nothing but the logo ever changes |
| SettingsForm.LogoLimitBoundary | settings-script.js:271 | a file of exactly 2097152 bytes is accepted and one of 2097153 bytes is refused |
| SettingsForm.RemoveLogo | settings-script.js:289-298 | the logo becomes none whatever it was, nothing else changes, and "Logo removed!" is shown |
| SettingsForm.RemoveUndoesUpload | settings-script.js:268-298 | removing the logo after any upload, accepted or refused, leaves the same settings as removing it without the upload |
| SettingsForm.ColorMessagesDistinct | settings-script.js:580 | the four colour messages are pairwise distinct and differ from the name message |
| SettingsForm.ValidateSettings | settings-script.js:568-585 | the error list is empty exactly when the trimmed company name is non-empty and all four colours pass the test; the name error appears once, first, exactly when the name is blank; then come the messages of the failing colours in primary, secondary, success, warning order, and nothing else; each colour message appears once exactly when that colour fails; at most five errors |
| SettingsForm.FailingMessages | settings-script.js:577-582 | walking the colour entries pushes only colour messages, never more messages than entries |
| SettingsForm.FailingMessagesExact | settings-script.js:577-582 | a colour's message is pushed exactly when that colour is walked and fails the test, and nothing is pushed exactly when every walked colour passes |
| SettingsForm.ColorErrorsInSlotOrder | settings-script.js:577-582 | the colour errors are what the entry walk pushes over the slots in declaration order |
| SettingsForm.ErrorListShape | settings-script.js:568-585 | the error list is the name message (exactly when the name is blank) followed by the entry walk's messages; the name message occurs once at most and every other entry is a colour message |
| SettingsForm.DefaultSettingsValid | settings-script.js:6-60 | the default record produces no validation errors |
| SettingsForm.UpdateDashboardMenu | settings-script.js:193-208 | an item whose non-empty section names a function is dimmed exactly when that function is disabled; every other item is left as it was |
| SettingsForm.MenuRuleIdempotent | settings-script.js:193-208 | applying the menu rule twice is applying it once |
| SettingsForm.ToggleFlipsItsMenuItems | settings-script.js:193-208 | after a toggle, exactly the items for the toggled function change their dimmed state |
| SettingsStore.LoadInto | settings-script.js:82-86 | nothing stored or an empty string leaves the settings unchanged; stored JSON is merged over the current settings; unparseable text is an error |
| SettingsStore.Refresh | settings-script.js:120-158 | filling the form keeps the settings and slot, and each picker holds its colour setting sanitized |
| SettingsStore.LoadSettings | settings-script.js:82-88 | load fails exactly on unparseable text; otherwise the slot is kept, the settings are merged (or kept) as the slot says, and the pickers hold valid colours |
| SettingsStore.Initialize | settings-script.js:546-556 | on a fresh page unparseable text leaves the default literal and the HTML pickers; stored JSON is merged over the default literal, and the page holds the merged company, functions, UI, users and logo with the merged colours sanitized into the pickers; nothing stored gives the defaults with sanitized colours; every colour setting is valid and equals its picker whenever loading succeeds |
| SettingsStore.InitializeFresh | settings-script.js:546-556 | with nothing stored a fresh page holds the default company, functions and no logo, with the default colours in lower case |
| SettingsStore.PickerValueIdempotent | settings-script.js:325-332 | sanitizing a picker value twice is sanitizing it once |
| SettingsStore.SaveSettings | settings-script.js:93-104 | a successful write stores the full record and shows the success toast; a failed write keeps the old slot and shows the error toast; the settings never change |
| SettingsStore.SaveClicked | settings-script.js:500-505 | the save button reads the company form, pickers and UI form, then saves; the saved colours are the pickers |
| SettingsStore.SaveSurvivesReload | settings-script.js:500-505 | after a successful save a page reload reproduces exactly the saved settings, for every record with a finite tax rate |
| SettingsStore.ResetSettings | settings-script.js:109-115 | as written: a confirmed reset empties the slot and shows "Settings reset to default!" but keeps the in-memory settings; an unconfirmed one changes nothing |
| SettingsStore.ResetKeepsChangedSettings | settings-script.js:109-113 | a page with "hrm" switched on still differs from the defaults after a confirmed reset, despite the toast |
| SettingsStore.ResetThenSaveRestoresOld | settings-script.js:109-113 | a reset followed by a save writes the old settings back, so even a reload does not return the defaults |
| SettingsStore.ResetToDefaults | settings-script.js:109-115 | corrected: a confirmed reset empties the slot and returns settings and pickers to the defaults |
| SettingsStore.ResetToDefaultsMatchesFreshLoad | settings-script.js:109-115 | the corrected reset reaches the same company, functions, UI and pickers as a fresh page with nothing stored |
| SettingsStore.ClearAllData | settings-script.js:531-537 | a confirmed clear empties the slot and the reloaded page holds the default company, functions and no logo, with lower-case default colours; an unconfirmed one changes nothing |
| SettingsStore.ExportSettings | settings-script.js:447-459 | the exported file, merged over the defaults, gives back exactly the exported settings, for every record with a finite tax rate |
| SettingsStore.ImportSettings | settings-script.js:464-486 | parseable text is merged over the current settings with a success toast; empty or unparseable text leaves the page exactly as it was with "Invalid settings file!"; the slot is never written |
| SettingsStore.ExportImportRoundTrip | settings-script.js:447-486 | importing an exported file into any page reproduces the exported settings, for every record with a finite tax rate |
| SettingsStore.RefreshSanitizes | settings-script.js:120-158 | after the form is filled the pickers hold values a colour input can hold |
| SettingsStore.StoreOperationsKeepPickersSanitized | settings-script.js:82-115 | save, reset (as written and corrected), import and load keep the pickers holding values a colour input can hold |
| SettingsStore.PickerInputKeepsPickersSanitized | settings-script.js:324-327 | a picker event keeps the pickers holding values a colour input can hold |
| Login.IndexOfAt | script.js:59 | the position of the first `@`, or the length when there is none |
| Login.EmailMatchesPattern | script.js:58-61 | the executable email test holds exactly when the string matches `^[^\s@]+@[^\s@]+\.[^\s@]+$`: no whitespace, one `@` with a non-empty part before it, and a `.` after it that is neither first nor last in the domain |
| Login.ValidateLogin | script.js:96-118 | a blank email gives "Email is required" ahead of the format message; a non-blank invalid one gives the format message; a blank password gives "required", a shorter than 6 UTF-16 units one gives "at least 6"; valid exactly when both pass |
| Login.AtMostOneMatch | script.js:6-22 | no email and password pair matches two different demo accounts |
| Login.AllAccountsListed | script.js:153-155 | every demo account is among those searched |
| Login.FindCredential | script.js:153-155 | the search returns a listed account that matches, or none exactly when no listed account matches |
| Login.SimulateLogin | script.js:148-181 | login succeeds exactly when the pair equals a demo record, returning that record's user; a failure reports "Invalid credentials" when the email is valid and the password has at least 6 units, "Login failed" otherwise |
| Login.RoleNames | script.js:157-165 | the Admin, Cashier and Salesman roles are named "System Administrator", "Store Cashier" and "Sales Representative" |
| Login.Submit | script.js:238-282 | an invalid form is rejected with its first error (email first); a valid one attempts a login on the trimmed values |
| Login.SubmitNeverReportsLoginFailed | script.js:238-282 | a submitted attempt that fails always reports "Invalid credentials", never "Login failed", because the form check already requires a valid email and a long enough password |
| Login.BlankEmailShownFirst | script.js:102-103 | a blank email is the message shown whatever the password |
| Login.SubmitMatching | script.js:238-282 | a valid form whose trimmed pair matches an account logs in as that account |
| Login.DemoCredentialsLogIn | script.js:6-22 | each of the three demo records, submitted as is, logs in as its own user |
| Login.DemoByKey | script.js:206-215 | `demoCredentials[role]` finds the admin, cashier and salesman records exactly for the keys "admin", "cashier" and "salesman", and nothing for any other key |
| Login.AutoFill | script.js:206-229 | a demo item whose `data-role` key names a record fills in fields that match that record; any other key leaves the fields as they were |
| Login.DemoItemLogsIn | script.js:206-229 | the keys "admin", "cashier" and "salesman", and no others, name records; after a demo item fills the fields, submitting logs in as that record's user with its role |
| Dashboard.Capitalize | dashboard-script.js:127 | the first character is upper-cased (ASCII) and the rest is unchanged |
| Dashboard.BreadcrumbName | dashboard-script.js:97-131 | a section in the table maps to its entry, any other to its capitalised form; the result is empty exactly for the empty section |
| Dashboard.BreadcrumbFallback | dashboard-script.js:127 | outside the table only the first letter can change, and a section not starting with a lower-case letter is shown as is |
| Dashboard.BreadcrumbMatchesFunctionNames | dashboard-script.js:102-125 | for every default function the breadcrumb is the function's display name on the settings page |
| Dashboard.NotificationIcon | dashboard-script.js:507-515 | a known type gets its table icon, any other type the `info` icon |
| Dashboard.NotificationColor | dashboard-script.js:522-530 | a known type gets its table colour, any other type the `info` colour |
| Dashboard.NotificationFallbackIsInfo | dashboard-script.js:507-530 | icons and colours know the same four types, and an unknown type is shown exactly as `info` |
| Dashboard.FirstWith | dashboard-script.js:81 | the item `querySelector` finds: the first item carrying the section, or none when no item does |
| Dashboard.Activated | dashboard-script.js:75-84 | after activation an item is active exactly when it is the first item carrying the section; the sections stay |
| Dashboard.ActivatedProperties | dashboard-script.js:75-84 | at most one item is active; some item is active exactly when some item carries the section, and then the first such item is |
| Dashboard.SetActiveMenuItem | dashboard-script.js:75-84 | clearing every item and then marking the first match gives exactly the activated items |
| Dashboard.ToggleSidebar | dashboard-script.js:22-35 | on mobile the sidebar and overlay flip together and scrolling is locked exactly while the sidebar is open; on desktop collapse and expansion flip together |
| Dashboard.CloseSidebar | dashboard-script.js:40-46 | on mobile sidebar, overlay and scroll lock are all cleared; on desktop nothing changes |
| Dashboard.HandleResizeAsWritten | dashboard-script.js:539-552 | as written: sidebar and overlay close at any width, but only a desktop width unlocks scrolling |
| Dashboard.ResizeAsWrittenLeavesScrollLocked | dashboard-script.js:548-551 | after opening the sidebar on a phone, a resize that stays phone-sized closes it yet leaves scrolling locked |
| Dashboard.HandleResize | dashboard-script.js:539-552 | corrected: sidebar, overlay and scroll lock are cleared at any width |
| Dashboard.Navigate | dashboard-script.js:75-91 | navigation activates the section's item, sets its breadcrumb, on mobile closes sidebar, overlay and scroll lock, and on desktop leaves those three flags and always leaves collapse and expansion alone |
| Dashboard.MenuClick | dashboard-script.js:134-148 | a non-empty section other than `logout` navigates; `logout` or no section changes nothing |
| Dashboard.MobileNavClick | dashboard-script.js:151-164 | a non-empty section other than `more` navigates; `more` toggles the sidebar on mobile and does nothing on desktop, and never touches items or breadcrumb |
| Dashboard.OutsideClick | dashboard-script.js:58-65 | on mobile with the sidebar open, a click outside sidebar and toggle closes it; otherwise nothing changes |
| Dashboard.ClicksAndActiveItem | dashboard-script.js:134-164 | `logout` and `more` clicks leave the active item alone; a click on any other non-empty section activates it |
| Dashboard.MoreTapOutsideSidebarIsUndone | dashboard-script.js:58-65 | when the mobile bar lies outside the sidebar, a `more` tap on a phone opens the sidebar and the document listener closes it again, leaving the page as it was |
| Dashboard.Boot | dashboard-script.js:659-664 | page start leaves exactly the items `dashboard` activation gives, shows "Dashboard", keeps the sidebar closed and not collapsed, and satisfies the shell invariant |
| Dashboard.NavigateKeepsConsistent | dashboard-script.js:75-91 | navigation keeps at most one active item and, on mobile, closes sidebar, overlay and scroll lock together |
| Dashboard.FlagEventsKeepConsistent | dashboard-script.js:22-65 | toggle, close, corrected resize and outside click each keep sidebar and overlay equal, collapse and expansion equal, and the scroll lock equal to the sidebar |
| Dashboard.HandleAsWritten | dashboard-script.js:22-65 | the page's handlers as written: only a navigation changes the items or the breadcrumb, and only a desktop toggle changes collapse or expansion |
| Dashboard.Handle | dashboard-script.js:539-552 | corrected: the handlers with the corrected resize do what the page as written does, except that a resize always unlocks scrolling |
| Dashboard.HandleAsWrittenKeepsLayout | dashboard-script.js:22-65 | on the page as written every event keeps sidebar and overlay equal, collapse and expansion equal, and at most one active item |
| Dashboard.RunAsWrittenKeepsLayout | dashboard-script.js:22-65 | on the page as written those three facts hold after any sequence of events; only the scroll lock can drift |
| Dashboard.RunAsWritten | dashboard-script.js:22-65 | as written: a sequence of events changes the active item and breadcrumb only through a navigation, and collapses or expands the sidebar only through a desktop toggle click |
| Dashboard.Run | dashboard-script.js:539-552 | corrected: a sequence of events with the corrected resize ends where the page as written ends whenever no event is a resize |
| Dashboard.HandlePreservesConsistent | dashboard-script.js:22-65 | with the corrected resize, every event keeps sidebar and overlay equal, collapse and expansion equal, the scroll lock equal to the sidebar, and at most one active item |
| Dashboard.RunPreservesConsistent | dashboard-script.js:22-65 | with the corrected resize, the shell invariant holds after any sequence of events |
| Kpi.KpiChange | dashboard-script.js:618 | the change is -1, 0 or 1; non-zero exactly when the value moves, and +1 exactly when it goes up |
| Kpi.KpiStep | dashboard-script.js:619 | the new value is never negative, is `current + change` when that is not negative and 0 otherwise, and differs from a non-negative value by at most 1 |
| Kpi.KpiTick | dashboard-script.js:618-624 | the new value is non-negative and within 1 of the old; an animation from the old to the new value runs exactly when the value moved, even when clamping keeps it at 0 |
| Kpi.ClampedTickStillAnimates | dashboard-script.js:618-624 | at 0, a downward draw keeps the value at 0 but still animates from 0 to 0 |
| Kpi.FrameBetween | dashboard-script.js:643-644 | every rounded intermediate frame lies between the start and end values |
| Kpi.FramesMonotone | dashboard-script.js:643-644 | for a rising value the frames never go down |
| Kpi.AnimateValueChange | dashboard-script.js:635-652 | exactly 20 frames are shown, frame k (before the last) is the rounded interpolation at step k, the last is exactly the target, and all lie between start and target |

## Left out

- DOM rendering is not modelled: form population beyond the colour pickers, the `innerHTML` lists of functions and roles, toasts and notifications as elements, tab switching, the logo preview, and the dashboard title and company-name updates (`applySettingsToDashboard` other than its menu rule).
- Storage, files and JSON text are abstracted. `localStorage`, `FileReader`, `Blob` downloads and JSON parsing become the slot and the `StoredText` variants. A parsed value that is not an object, or that carries ill-typed fields, is not represented.
- Timers are not modelled: `setTimeout`/`setInterval` scheduling, the 1.5 s login delay, the page reloads' delay, and the chart refresh.
- Chart.js, the fullscreen API, `window.print`, KPI card and quick-action clicks, and the keyboard shortcuts other than Escape are left out. They are wrappers over browser and library APIs.
- Login page glue is left out: the auto-fill highlight, per-field error display, the "forgot password" link and post-login navigation. These are DOM effects.
- Property lookups that hit the object prototype are left out: a section such as `constructor` found through `sectionNames[section]` or `settingsData.functions[key]`, or a demo item whose `data-role` is such a name in `demoCredentials[role]`. These maps are modelled as plain finite maps.
- Case mapping is ASCII only. `toUpperCase` on non-ASCII letters is not modelled.
- Dashboard.SetActiveMenuItem: the items are taken to be every `data-section` element of the document, each a menu or mobile navigation item. An element carrying `data-section` outside those two lists would not be cleared by the page.
- SettingsForm.ValidateSettings: the colour check runs over exactly the four fixed slots. An imported `colors` object with extra or reordered keys would make `Object.entries` yield other messages or another order.
- SettingsForm.ReadCompany: `parseFloat` is abstracted to an optional exact real. NaN is `None`, and floating-point rounding is not modelled.
- Kpi.AnimateValueChange: the interpolation `from + stepValue * step` is computed in exact rationals before `Math.round`. Floating-point rounding of intermediate frames is not modelled. The last frame is exact in both.
- Dashboard.Navigate: a section whose text makes the attribute selector invalid (one holding a `"`, a `\` or a line break) makes `querySelector` throw after the items were cleared, so neither the breadcrumb update nor the sidebar close runs. Sections are taken to be selector-safe.
- SettingsForm.PickerValue: browsers whose colour inputs accept any CSS colour would turn a named colour such as `red` into `#ff0000` rather than `#000000`. The model uses the simple-colour rule.
- SettingsStore.ImportSettings: only parsed objects whose present sub-records are complete and well-typed are represented. The page also accepts a partial sub-record such as `{"company":{"name":"X"}}`, which leaves the company's other fields undefined (settings-script.js:85, 122-129). A file such as `{"branding":{"logo":"x"}}` is merged into the settings first and only then makes `applySettingsToForm` throw (settings-script.js:475-476), so "Invalid settings file!" appears with the settings already changed. The model promises an unchanged page only for empty or unparseable text.
- SettingsStore.SaveSurvivesReload: a tax rate that is not a finite number is not represented, because `Company.taxRate` is a real. `parseFloat` reads an overflowing entry such as `1e999` as Infinity and `|| 0` keeps it (settings-script.js:247). `JSON.stringify` writes Infinity as `null` (settings-script.js:95), so a reload would give back `null` rather than the saved value.
- SettingsStore.ExportSettings: for the same reason, an Infinity tax rate, which an imported `1e999` literal also produces, is written as `null` by the export (settings-script.js:448). Merging the file over the defaults then gives `null`, not the exported value.
- SettingsStore.ExportImportRoundTrip: the round trip is stated for finite tax rates only. A non-finite tax rate comes back as `null` after export then import.
- Kpi.KpiTick: the current value is taken as an integer. `parseInt` on a non-numeric text (NaN) is not modelled.

## Findings

| source | as written | input that shows it | evidently intended | confidence | as-written member | corrected member |
|---|---|---|---|---|---|---|
| settings-script.js:109-115 | reset removes the stored slot and reloads, but the load merges nothing into the current in-memory settings, so they stay as they were while the toast says "Settings reset to default!"; a later save writes them back | switch "hrm" on, then confirm reset: hrm is still on, and saving stores it on | reset restores the default record in memory and in the form | high, not executed | SettingsStore.ResetSettings (shown by SettingsStore.ResetKeepsChangedSettings) | SettingsStore.ResetToDefaults (proved by SettingsStore.ResetToDefaultsMatchesFreshLoad) |
| dashboard-script.js:548-551 | the phone-width branch of `handleResize` closes the sidebar and overlay but does not reset `body.style.overflow`, so scrolling stays locked with no open sidebar | on a phone, open the sidebar (scrolling locks), then resize the window while staying at 767 px or less | closing the sidebar on resize also unlocks scrolling, as `closeSidebar` and the desktop branch do | medium, not executed | Dashboard.HandleResizeAsWritten (shown by Dashboard.ResizeAsWrittenLeavesScrollLocked) | Dashboard.HandleResize (proved by Dashboard.RunPreservesConsistent) |

=== FILE: dashboard.dfy ===
/**
 * The dashboard shell: breadcrumb names, notification icon and colour
 * lookups, the active navigation item, and the sidebar/overlay flags.
 * The viewport test `innerWidth <= 767` is the boolean `isMobile`.
 */
module Dashboard {
  import opened Wrappers
  import opened Text
  import SettingsModel

  // ---------------------------------------------------------------------------
  // Breadcrumb
  // ---------------------------------------------------------------------------

  /** The fixed section-to-display-name table. */
  const SectionNames: map<string, string> := map[
    "dashboard" := "Dashboard",
    "sales" := "Sales",
    "quotation" := "Quotation",
    "purchase" := "Purchase",
    "warranty" := "Warranty",
    "customer" := "Customer",
    "supplier" := "Supplier",
    "salesperson" := "Sales Person",
    "product" := "Product",
    "accounting" := "Accounting",
    "hrm" := "HRM",
    "salary" := "Salary",
    "gst" := "GST Report",
    "loan" := "Loan Management",
    "reports" := "Reports",
    "sms" := "SMS & Email",
    "usermanagement" := "User Management",
    "store" := "Store Management",
    "settings" := "Setting",
    "storechange" := "Store Change",
    "logout" := "Logout",
    "more" := "More"
  ]

  /** `s.charAt(0).toUpperCase() + s.slice(1)` (ASCII case mapping). */
  function Capitalize(s: string): (r: string)
    ensures |r| == |s|
    ensures s != [] ==> r[0] == AsciiUpper(s[0]) && r[1..] == s[1..]
  {
    if s == [] then [] else [AsciiUpper(s[0])] + s[1..]
  }

  /** The breadcrumb text for a section: its table entry, or else the section with its first
      letter upper-cased. */
  function BreadcrumbName(section: string): (r: string)
    ensures section in SectionNames ==> r == SectionNames[section]
    ensures section !in SectionNames ==> r == Capitalize(section)
    ensures r == [] <==> section == []
  {
    if section in SectionNames then SectionNames[section] else Capitalize(section)
  }

  /** The fallback only changes the first letter: a section outside the table that already
      starts with a capital (or a non-letter) is shown unchanged. */
  lemma BreadcrumbFallback(section: string)
    requires section !in SectionNames && section != []
    ensures BreadcrumbName(section)[1..] == section[1..]
    ensures !('a' <= section[0] <= 'z') ==> BreadcrumbName(section) == section
  {
    var r := BreadcrumbName(section);
    if !('a' <= section[0] <= 'z') {
      assert r == [r[0]] + r[1..];
      assert section == [section[0]] + section[1..];
    }
  }

  /** The breadcrumb for each business function is the display name the settings page gives
      that function by default. */
  lemma BreadcrumbMatchesFunctionNames()
    ensures forall k :: k in SettingsModel.DefaultFunctions ==>
      BreadcrumbName(k) == SettingsModel.DefaultFunctions[k].name
  {
  }

  // ---------------------------------------------------------------------------
  // Notifications
  // ---------------------------------------------------------------------------

  const NotificationIcons: map<string, string> := map[
    "success" := "fa-check-circle",
    "error" := "fa-exclamation-circle",
    "warning" := "fa-exclamation-triangle",
    "info" := "fa-info-circle"
  ]

  const NotificationColors: map<string, string> := map[
    "success" := "#198754",
    "error" := "#DC3545",
    "warning" := "#FFC107",
    "info" := "#0D6EFD"
  ]

  /** `getNotificationIcon`: the table entry for a known type, the `info` icon otherwise. */
  function NotificationIcon(kind: string): (r: string)
    ensures kind in NotificationIcons ==> r == NotificationIcons[kind]
    ensures kind !in NotificationIcons ==> r == "fa-info-circle"
    ensures r in NotificationIcons.Values
  {
    if kind in NotificationIcons then NotificationIcons[kind] else NotificationIcons["info"]
  }

  /** `getNotificationColor`: the table entry for a known type, the `info` colour otherwise. */
  function NotificationColor(kind: string): (r: string)
    ensures kind in NotificationColors ==> r == NotificationColors[kind]
    ensures kind !in NotificationColors ==> r == "#0D6EFD"
    ensures r in NotificationColors.Values
  {
    if kind in NotificationColors then NotificationColors[kind] else NotificationColors["info"]
  }

  /** Icons and colours cover the same four types, and an unknown type is shown exactly as
      `info` is. */
  lemma NotificationFallbackIsInfo(kind: string)
    ensures NotificationIcons.Keys == NotificationColors.Keys
    ensures kind !in NotificationIcons ==>
      NotificationIcon(kind) == NotificationIcon("info") && NotificationColor(kind) == NotificationColor("info")
  {
  }

  // ---------------------------------------------------------------------------
  // Active navigation item
  // ---------------------------------------------------------------------------

  /** An element carrying `data-section` (a sidebar menu item or a mobile navigation item), in
      document order, with whether it has the `active` class. */
  datatype NavItem = NavItem(section: Option<string>, active: bool)

  /** The index `document.querySelector('[data-section="s"]')` finds: the first item whose
      attribute equals `section`. */
  function FirstWith(items: seq<NavItem>, section: string, from: nat): (r: Option<nat>)
    requires from <= |items|
    ensures r.Some? ==> from <= r.value < |items| && items[r.value].section == Some(section)
    ensures r.Some? ==> forall j :: from <= j < r.value ==> items[j].section != Some(section)
    ensures r.None? ==> forall j :: from <= j < |items| ==> items[j].section != Some(section)
    decreases |items| - from
  {
    if from == |items| then None
    else if items[from].section == Some(section) then Some(from)
    else FirstWith(items, section, from + 1)
  }

  /** The items after `setActiveMenuItem(section)`: only the first item for `section` is active. */
  function Activated(items: seq<NavItem>, section: string): (r: seq<NavItem>)
    ensures |r| == |items|
    ensures forall i :: 0 <= i < |r| ==> r[i].section == items[i].section
    ensures forall i :: 0 <= i < |r| ==> (r[i].active <==> FirstWith(items, section, 0) == Some(i))
  {
    var first := FirstWith(items, section, 0);
    seq(|items|, i requires 0 <= i < |items| => NavItem(items[i].section, first == Some(i)))
  }

  predicate AtMostOneActive(items: seq<NavItem>) {
    forall i, j :: 0 <= i < |items| && 0 <= j < |items| && items[i].active && items[j].active ==> i == j
  }

  /** After activation at most one item is active; an item is active exactly when some item
      carries the section, and then it is the first such item. */
  lemma ActivatedProperties(items: seq<NavItem>, section: string)
    ensures AtMostOneActive(Activated(items, section))
    ensures (exists i :: 0 <= i < |items| && Activated(items, section)[i].active) <==>
            (exists i :: 0 <= i < |items| && items[i].section == Some(section))
    ensures forall i ::
              (0 <= i < |items| && items[i].section == Some(section) &&
               (forall j :: 0 <= j < i ==> items[j].section != Some(section))) ==>
              Activated(items, section)[i].active
  {
    var r := Activated(items, section);
    var first := FirstWith(items, section, 0);
    if first.Some? {
      assert r[first.value].active;
    }
    forall i | 0 <= i < |items| && items[i].section == Some(section) &&
               (forall j :: 0 <= j < i ==> items[j].section != Some(section))
      ensures r[i].active
    {
      assert first.Some?;
      assert first.value == i;
    }
  }

  /** `setActiveMenuItem` as the page runs it: clear every item, then find the first item for the
      section and mark it active. */
  method SetActiveMenuItem(items: seq<NavItem>, section: string) returns (r: seq<NavItem>)
    ensures r == Activated(items, section)
  {
    r := [];
    var i := 0;
    while i < |items|
      invariant 0 <= i <= |items|
      invariant |r| == i
      invariant forall k :: 0 <= k < i ==> r[k] == NavItem(items[k].section, false)
    {
      r := r + [NavItem(items[i].section, false)];
      i := i + 1;
    }
    var j := 0;
    while j < |items| && items[j].section != Some(section)
      invariant 0 <= j <= |items|
      invariant forall k :: 0 <= k < j ==> items[k].section != Some(section)
    {
      j := j + 1;
    }
    if j < |items| {
      r := r[j := NavItem(items[j].section, true)];
    }
    var first := FirstWith(items, section, 0);
    assert j < |items| ==> first == Some(j);
    assert j == |items| ==> first.None?;
  }

  // ---------------------------------------------------------------------------
  // Shell state
  // ---------------------------------------------------------------------------

  /** The dashboard's visible state: navigation items, the breadcrumb text, the sidebar's
      `active` and `collapsed` classes, the overlay's `active` class, the main content's
      `expanded` class, and whether page scrolling is locked (`overflow: hidden` on the body). */
  datatype Shell = Shell(
    items: seq<NavItem>,
    breadcrumb: string,
    sidebarActive: bool,
    overlayActive: bool,
    collapsed: bool,
    expanded: bool,
    scrollLocked: bool)

  /** `toggleSidebar`: on mobile the sidebar and overlay flip together and scrolling is locked
      exactly while the sidebar is open; on desktop the sidebar collapses or expands. */
  function ToggleSidebar(sh: Shell, isMobile: bool): (r: Shell)
    ensures isMobile ==> r.sidebarActive == !sh.sidebarActive && r.overlayActive == !sh.overlayActive
    ensures isMobile ==> r.scrollLocked == r.sidebarActive
    ensures isMobile ==> r.collapsed == sh.collapsed && r.expanded == sh.expanded
    ensures !isMobile ==> r.collapsed == !sh.collapsed && r.expanded == !sh.expanded
    ensures !isMobile ==> r.sidebarActive == sh.sidebarActive && r.overlayActive == sh.overlayActive
    ensures !isMobile ==> r.scrollLocked == sh.scrollLocked
    ensures r.items == sh.items && r.breadcrumb == sh.breadcrumb
  {
    if isMobile then
      sh.(sidebarActive := !sh.sidebarActive, overlayActive := !sh.overlayActive,
          scrollLocked := !sh.sidebarActive)
    else
      sh.(collapsed := !sh.collapsed, expanded := !sh.expanded)
  }

  /** `closeSidebar`: on mobile the sidebar and overlay close and scrolling is unlocked; on
      desktop nothing happens. */
  function CloseSidebar(sh: Shell, isMobile: bool): (r: Shell)
    ensures isMobile ==> !r.sidebarActive && !r.overlayActive && !r.scrollLocked
    ensures isMobile ==> r.collapsed == sh.collapsed && r.expanded == sh.expanded
    ensures !isMobile ==> r == sh
    ensures r.items == sh.items && r.breadcrumb == sh.breadcrumb
  {
    if isMobile then sh.(sidebarActive := false, overlayActive := false, scrollLocked := false)
    else sh
  }

  /** `handleResize` as written: both branches close the sidebar and overlay, but only the
      desktop branch unlocks scrolling. */
  function HandleResizeAsWritten(sh: Shell, isMobile: bool): (r: Shell)
    ensures !r.sidebarActive && !r.overlayActive
    ensures !isMobile ==> !r.scrollLocked
    ensures isMobile ==> r.scrollLocked == sh.scrollLocked
    ensures r.items == sh.items && r.collapsed == sh.collapsed && r.expanded == sh.expanded
  {
    if !isMobile then sh.(sidebarActive := false, overlayActive := false, scrollLocked := false)
    else sh.(sidebarActive := false, overlayActive := false)
  }

  /** `handleResize` as evidently intended: the sidebar and overlay close and scrolling is
      unlocked whatever the width. */
  function HandleResize(sh: Shell, isMobile: bool): (r: Shell)
    ensures !r.sidebarActive && !r.overlayActive && !r.scrollLocked
    ensures r.items == sh.items && r.breadcrumb == sh.breadcrumb
    ensures r.collapsed == sh.collapsed && r.expanded == sh.expanded
  {
    sh.(sidebarActive := false, overlayActive := false, scrollLocked := false)
  }

  /** `setActiveMenuItem`: activate the section's item, update the breadcrumb, close the sidebar. */
  function Navigate(sh: Shell, section: string, isMobile: bool): (r: Shell)
    ensures r.items == Activated(sh.items, section)
    ensures r.breadcrumb == BreadcrumbName(section)
    ensures isMobile ==> !r.sidebarActive && !r.overlayActive && !r.scrollLocked
    ensures !isMobile ==>
      r.sidebarActive == sh.sidebarActive && r.overlayActive == sh.overlayActive
      && r.scrollLocked == sh.scrollLocked
    ensures r.collapsed == sh.collapsed && r.expanded == sh.expanded
  {
    CloseSidebar(sh.(items := Activated(sh.items, section), breadcrumb := BreadcrumbName(section)), isMobile)
  }

  /** A click on a sidebar menu item: a non-empty section other than `logout` navigates;
      `logout` and a missing or empty section change nothing (they only show notifications). */
  function MenuClick(sh: Shell, section: Option<string>, isMobile: bool): (r: Shell)
    ensures section.Some? && section.value != "" && section.value != "logout" ==>
      r == Navigate(sh, section.value, isMobile)
    ensures section == Some("logout") || section == Some("") || section.None? ==> r == sh
  {
    if section.Some? && section.value != "" && section.value != "logout" then
      Navigate(sh, section.value, isMobile)
    else sh
  }

  /** A click on a mobile navigation item: a non-empty section other than `more` navigates;
      `more` toggles the sidebar on mobile and does nothing on desktop. */
  function MobileNavClick(sh: Shell, section: Option<string>, isMobile: bool): (r: Shell)
    ensures section.Some? && section.value != "" && section.value != "more" ==>
      r == Navigate(sh, section.value, isMobile)
    ensures section == Some("more") ==> r.items == sh.items && r.breadcrumb == sh.breadcrumb
    ensures section == Some("more") && isMobile ==> r == ToggleSidebar(sh, true)
    ensures section == Some("more") && !isMobile ==> r == sh
    ensures section == Some("") || section.None? ==> r == sh
  {
    if section.Some? && section.value != "" && section.value != "more" then
      Navigate(sh, section.value, isMobile)
    else if section == Some("more") && isMobile then
      ToggleSidebar(sh, true)
    else sh
  }

  /** A document click: on mobile, with the sidebar open, a click outside the sidebar and its
      toggle button closes it. */
  function OutsideClick(sh: Shell, isMobile: bool, onSidebarOrToggle: bool): (r: Shell)
    ensures isMobile && sh.sidebarActive && !onSidebarOrToggle ==> r == CloseSidebar(sh, true)
    ensures !(isMobile && sh.sidebarActive && !onSidebarOrToggle) ==> r == sh
  {
    if isMobile && sh.sidebarActive && !onSidebarOrToggle then CloseSidebar(sh, isMobile) else sh
  }

  /** The events the shell reacts to. `Escape` is the Escape key, which closes the sidebar. A
      click also reaches the document-level listener after the clicked element's own handler;
      `onSidebarOrToggle` says whether the clicked element lies inside the sidebar or the toggle
      button. */
  datatype Event =
    | ToggleClicked
    | OverlayClicked
    | Resized
    | Escape
    | MenuClicked(section: Option<string>, onSidebarOrToggle: bool)
    | MobileNavClicked(section: Option<string>, onSidebarOrToggle: bool)
    | DocumentClicked(onSidebarOrToggle: bool)

  /** The page's event handlers as written: a resize runs `handleResize` as it stands. Only a
      navigation changes the items and the breadcrumb, and only a toggle click on desktop
      collapses or expands the sidebar. */
  function HandleAsWritten(sh: Shell, e: Event, isMobile: bool): (r: Shell)
    ensures r.items != sh.items || r.breadcrumb != sh.breadcrumb ==>
      e.MenuClicked? || e.MobileNavClicked?
    ensures r.collapsed != sh.collapsed || r.expanded != sh.expanded ==>
      e.ToggleClicked? && !isMobile
  {
    match e
    case ToggleClicked => ToggleSidebar(sh, isMobile)
    case OverlayClicked => CloseSidebar(sh, isMobile)
    case Resized => HandleResizeAsWritten(sh, isMobile)
    case Escape => CloseSidebar(sh, isMobile)
    case MenuClicked(s, inside) => OutsideClick(MenuClick(sh, s, isMobile), isMobile, inside)
    case MobileNavClicked(s, inside) => OutsideClick(MobileNavClick(sh, s, isMobile), isMobile, inside)
    case DocumentClicked(inside) => OutsideClick(sh, isMobile, inside)
  }

  /** The handlers with the corrected resize. The corrected page does what the page as written
      does, except that after a resize scrolling is always unlocked. */
  function Handle(sh: Shell, e: Event, isMobile: bool): (r: Shell)
    ensures !e.Resized? ==> r == HandleAsWritten(sh, e, isMobile)
    ensures e.Resized? ==> r == HandleAsWritten(sh, e, isMobile).(scrollLocked := false)
  {
    if e.Resized? then HandleResize(sh, isMobile) else HandleAsWritten(sh, e, isMobile)
  }

  /** Neither a `logout` menu click nor a `more` navigation tap changes the active item or the
      breadcrumb; a click on any other non-empty section activates that section. */
  lemma ClicksAndActiveItem(sh: Shell, section: string, inside: bool, isMobile: bool)
    ensures Handle(sh, MenuClicked(Some("logout"), inside), isMobile).items == sh.items
    ensures Handle(sh, MobileNavClicked(Some("more"), inside), isMobile).items == sh.items
    ensures section != "" && section != "logout" ==>
      Handle(sh, MenuClicked(Some(section), inside), isMobile).items == Activated(sh.items, section)
    ensures section != "" && section != "more" ==>
      Handle(sh, MobileNavClicked(Some(section), inside), isMobile).items == Activated(sh.items, section)
  {
  }

  /** When the mobile navigation bar lies outside the sidebar, a `more` tap on a phone with the
      sidebar closed ends with the page as it was: the tap opens the sidebar, and the document
      listener, seeing an open sidebar and a click outside it, closes it again. */
  lemma MoreTapOutsideSidebarIsUndone(sh: Shell)
    requires Consistent(sh) && !sh.sidebarActive
    ensures MobileNavClick(sh, Some("more"), true).sidebarActive
    ensures Handle(sh, MobileNavClicked(Some("more"), false), true) == sh
  {
  }

  /** The shell invariant: the sidebar and overlay are open together, collapse and expansion go
      together, scrolling is locked exactly while the sidebar is open, and at most one
      navigation item is active. */
  predicate Consistent(sh: Shell) {
    LayoutConsistent(sh) && sh.scrollLocked == sh.sidebarActive
  }

  /** The part of the shell invariant that does not involve the scroll lock. */
  predicate LayoutConsistent(sh: Shell) {
    && sh.sidebarActive == sh.overlayActive
    && sh.collapsed == sh.expanded
    && AtMostOneActive(sh.items)
  }

  /** Page start: `setActiveMenuItem('dashboard')` on a shell whose flags are all off. */
  function Boot(items: seq<NavItem>, isMobile: bool): (r: Shell)
    ensures Consistent(r)
    ensures r.items == Activated(items, "dashboard")
    ensures r.breadcrumb == "Dashboard"
    ensures !r.sidebarActive && !r.collapsed
  {
    ActivatedProperties(items, "dashboard");
    Navigate(Shell(items, "", false, false, false, false, false), "dashboard", isMobile)
  }

  /** Navigation keeps the shell consistent: it leaves one active item at most and, on mobile,
      closes sidebar, overlay and scroll lock together. */
  lemma NavigateKeepsConsistent(sh: Shell, section: string, isMobile: bool)
    requires Consistent(sh)
    ensures Consistent(Navigate(sh, section, isMobile))
  {
    ActivatedProperties(sh.items, section);
  }

  /** The flag-only events keep the shell consistent. */
  lemma FlagEventsKeepConsistent(sh: Shell, isMobile: bool, inside: bool)
    requires Consistent(sh)
    ensures Consistent(ToggleSidebar(sh, isMobile))
    ensures Consistent(CloseSidebar(sh, isMobile))
    ensures Consistent(HandleResize(sh, isMobile))
    ensures Consistent(OutsideClick(sh, isMobile, inside))
  {
  }

  /** Every event keeps the shell consistent. */
  lemma HandlePreservesConsistent(sh: Shell, e: Event, isMobile: bool)
    requires Consistent(sh)
    ensures Consistent(Handle(sh, e, isMobile))
  {
    match e
    case MenuClicked(s, inside) =>
      var mid := MenuClick(sh, s, isMobile);
      if s.Some? && s.value != "" && s.value != "logout" {
        NavigateKeepsConsistent(sh, s.value, isMobile);
      }
      FlagEventsKeepConsistent(mid, isMobile, inside);
    case MobileNavClicked(s, inside) =>
      var mid := MobileNavClick(sh, s, isMobile);
      if s.Some? && s.value != "" && s.value != "more" {
        NavigateKeepsConsistent(sh, s.value, isMobile);
      } else {
        FlagEventsKeepConsistent(sh, isMobile, inside);
      }
      FlagEventsKeepConsistent(mid, isMobile, inside);
    case _ =>
      FlagEventsKeepConsistent(sh, isMobile, false);
  }

  /** A sequence of events, each seen at its own viewport width, on the page as written. Without a
      navigation the items and breadcrumb stay put, and without a desktop toggle click the sidebar
      is neither collapsed nor expanded. */
  function RunAsWritten(sh: Shell, events: seq<(Event, bool)>): (r: Shell)
    ensures (forall k :: 0 <= k < |events| ==> !events[k].0.MenuClicked? && !events[k].0.MobileNavClicked?) ==>
      r.items == sh.items && r.breadcrumb == sh.breadcrumb
    ensures (forall k :: 0 <= k < |events| ==> !(events[k].0.ToggleClicked? && !events[k].1)) ==>
      r.collapsed == sh.collapsed && r.expanded == sh.expanded
    decreases |events|
  {
    if events == [] then sh
    else
      var r := RunAsWritten(HandleAsWritten(sh, events[0].0, events[0].1), events[1..]);
      assert forall k :: 0 <= k < |events| - 1 ==> events[1..][k] == events[k + 1];
      r
  }

  /** A sequence of events on the page with the corrected resize. Without resizes it ends where
      the page as written ends. */
  function Run(sh: Shell, events: seq<(Event, bool)>): (r: Shell)
    ensures (forall k :: 0 <= k < |events| ==> !events[k].0.Resized?) ==> r == RunAsWritten(sh, events)
    decreases |events|
  {
    if events == [] then sh
    else
      var r := Run(Handle(sh, events[0].0, events[0].1), events[1..]);
      assert forall k :: 0 <= k < |events| - 1 ==> events[1..][k] == events[k + 1];
      r
  }

  /** Consistency holds after any sequence of events from page start. */
  lemma {:induction false} RunPreservesConsistent(sh: Shell, events: seq<(Event, bool)>)
    requires Consistent(sh)
    ensures Consistent(Run(sh, events))
    decreases |events|
  {
    if events != [] {
      HandlePreservesConsistent(sh, events[0].0, events[0].1);
      RunPreservesConsistent(Handle(sh, events[0].0, events[0].1), events[1..]);
    }
  }

  /** The as-written resize breaks the invariant: open the sidebar on a phone, let the window
      resize (still phone-sized), and the sidebar is closed while scrolling stays locked. */
  lemma ResizeAsWrittenLeavesScrollLocked(items: seq<NavItem>)
    ensures var openSidebar := ToggleSidebar(Boot(items, true), true);
            var resized := HandleResizeAsWritten(openSidebar, true);
            Consistent(openSidebar) && !resized.sidebarActive && resized.scrollLocked
  {
    var b := Boot(items, true);
    assert !b.sidebarActive;
  }

  /** Navigation keeps the layout part of the invariant. */
  lemma NavigateKeepsLayout(sh: Shell, section: string, isMobile: bool)
    requires LayoutConsistent(sh)
    ensures LayoutConsistent(Navigate(sh, section, isMobile))
  {
    ActivatedProperties(sh.items, section);
  }

  /** On the page as written every event keeps the sidebar and overlay together, collapse and
      expansion together, and at most one item active; only the scroll lock can drift. */
  lemma HandleAsWrittenKeepsLayout(sh: Shell, e: Event, isMobile: bool)
    requires LayoutConsistent(sh)
    ensures LayoutConsistent(HandleAsWritten(sh, e, isMobile))
  {
    match e
    case MenuClicked(s, inside) =>
      if s.Some? && s.value != "" && s.value != "logout" {
        NavigateKeepsLayout(sh, s.value, isMobile);
      }
    case MobileNavClicked(s, inside) =>
      if s.Some? && s.value != "" && s.value != "more" {
        NavigateKeepsLayout(sh, s.value, isMobile);
      }
    case _ =>
  }

  /** The layout invariant holds after any sequence of events on the page as written. */
  lemma {:induction false} RunAsWrittenKeepsLayout(sh: Shell, events: seq<(Event, bool)>)
    requires LayoutConsistent(sh)
    ensures LayoutConsistent(RunAsWritten(sh, events))
    decreases |events|
  {
    if events != [] {
      HandleAsWrittenKeepsLayout(sh, events[0].0, events[0].1);
      RunAsWrittenKeepsLayout(HandleAsWritten(sh, events[0].0, events[0].1), events[1..]);
    }
  }
}

=== FILE: kpi.dfy ===
/**
 * The simulated KPI updates: the per-card step `max(0, current + change)`
 * with a random change in {-1, 0, 1}, and the 20-step counter animation.
 * The random draws are parameters; the animation's intermediate values use
 * exact rational arithmetic rather than floating point.
 */
module Kpi {
  import opened Wrappers

  /** The random change: `Math.random() > 0.7` decides whether the value moves (`moves`), and
      `Math.random() > 0.5` whether it goes up (`up`). */
  function KpiChange(moves: bool, up: bool): (c: int)
    ensures -1 <= c <= 1
    ensures c != 0 <==> moves
    ensures moves ==> (c == 1 <==> up)
  {
    if moves then (if up then 1 else -1) else 0
  }

  /** `Math.max(0, current + change)`. */
  function KpiStep(current: int, change: int): (r: int)
    requires -1 <= change <= 1
    ensures r >= 0
    ensures current + change >= 0 ==> r == current + change
    ensures current + change < 0 ==> r == 0
    ensures current >= 0 ==> -1 <= r - current <= 1
  {
    if current + change > 0 then current + change else 0
  }

  /** One card's update: the new value, and the animation to run (from the old value to the new
      one), which runs exactly when the change is non-zero, even if clamping keeps the value. */
  datatype KpiUpdate = KpiUpdate(value: int, animation: Option<(int, int)>)

  function KpiTick(current: int, moves: bool, up: bool): (u: KpiUpdate)
    ensures u.value >= 0
    ensures current >= 0 ==> -1 <= u.value - current <= 1
    ensures u.animation.Some? <==> moves
    ensures u.animation.Some? ==> u.animation.value == (current, u.value)
  {
    var change := KpiChange(moves, up);
    var v := KpiStep(current, change);
    KpiUpdate(v, if change != 0 then Some((current, v)) else None)
  }

  /** At zero, a downward draw still runs an animation, from 0 to 0. */
  lemma ClampedTickStillAnimates()
    ensures KpiTick(0, true, false) == KpiUpdate(0, Some((0, 0)))
  {
  }

  /** The number of animation frames. */
  const Steps: nat := 20

  /** `Math.round`: halves round up. */
  function JsRound(x: real): int {
    (x + 0.5).Floor
  }

  /** `from + ((to - from) / steps) * step`, computed exactly. */
  function Interpolate(from: int, to: int, step: nat): real {
    from as real + ((to - from) as real / Steps as real) * step as real
  }

  /** The value shown at frame `step` before the final overwrite. */
  function FrameValue(from: int, to: int, step: nat): int {
    JsRound(Interpolate(from, to, step))
  }

  function Min(a: int, b: int): int { if a <= b then a else b }
  function Max(a: int, b: int): int { if a <= b then b else a }

  /** Interpolated points lie between the end points. */
  lemma InterpolateBetween(from: int, to: int, step: nat)
    requires step <= Steps
    ensures Min(from, to) as real <= Interpolate(from, to, step) <= Max(from, to) as real
  {
    var d := (to - from) as real / 20.0;
    var t := step as real;
    assert 0.0 <= t <= 20.0;
    assert d * 20.0 == (to - from) as real;
    assert Interpolate(from, to, step) == from as real + d * t;
    if from <= to {
      assert d >= 0.0;
      assert d * t <= d * 20.0;
      assert d * t >= 0.0;
    } else {
      assert d <= 0.0;
      assert d * t >= d * 20.0;
      assert d * t <= 0.0;
    }
  }

  /** Rounding a point between two integers stays between them. */
  lemma RoundBetween(x: real, lo: int, hi: int)
    requires lo as real <= x <= hi as real
    ensures lo <= JsRound(x) <= hi
  {
  }

  /** Every intermediate frame lies between the two end values. */
  lemma FrameBetween(from: int, to: int, step: nat)
    requires step <= Steps
    ensures Min(from, to) <= FrameValue(from, to, step) <= Max(from, to)
  {
    InterpolateBetween(from, to, step);
    RoundBetween(Interpolate(from, to, step), Min(from, to), Max(from, to));
  }

  /** For a rising value the frames never go down. */
  lemma FramesMonotone(from: int, to: int, a: nat, b: nat)
    requires from <= to && a <= b
    ensures FrameValue(from, to, a) <= FrameValue(from, to, b)
  {
    var d := (to - from) as real / 20.0;
    assert d >= 0.0;
    assert d * a as real <= d * b as real;
    var x := Interpolate(from, to, a) + 0.5;
    var y := Interpolate(from, to, b) + 0.5;
    assert x <= y;
    assert x.Floor as real <= x;
    assert y < y.Floor as real + 1.0;
  }

  /** `animateValueChange`: a timer fires `Steps` times; each tick shows the rounded interpolated
      value, and the last tick stops the timer and shows exactly `to`. */
  method AnimateValueChange(from: int, to: int) returns (frames: seq<int>)
    ensures |frames| == Steps
    ensures frames[Steps - 1] == to
    ensures forall k :: 0 <= k < Steps - 1 ==> frames[k] == FrameValue(from, to, k + 1)
    ensures forall k :: 0 <= k < Steps ==> Min(from, to) <= frames[k] <= Max(from, to)
  {
    frames := [];
    var currentStep: nat := 0;
    var running := true;
    while running
      invariant 0 <= currentStep <= Steps
      invariant running <==> currentStep < Steps
      invariant |frames| == currentStep
      invariant forall k :: 0 <= k < currentStep ==>
        frames[k] == (if k + 1 >= Steps then to else FrameValue(from, to, k + 1))
      invariant forall k :: 0 <= k < currentStep ==> Min(from, to) <= frames[k] <= Max(from, to)
      decreases Steps - currentStep
    {
      currentStep := currentStep + 1;
      var shown := FrameValue(from, to, currentStep);
      FrameBetween(from, to, currentStep);
      if currentStep >= Steps {
        running := false;
        shown := to;
      }
      frames := frames + [shown];
    }
  }
}

=== FILE: login.dfy ===
/**
 * The login page: the email test, the form validator with its error
 * precedence, and the simulated login against three hard-coded demo
 * credentials (the network delay is not part of the model).
 */
module Login {
  import opened Wrappers
  import opened Text

  // ---------------------------------------------------------------------------
  // Email test
  // ---------------------------------------------------------------------------

  /** A character of the class `[^\s@]`. */
  predicate Plain(c: char) {
    !IsWhitespace(c) && c != '@'
  }

  predicate AllPlain(s: string) {
    forall k :: 0 <= k < |s| ==> Plain(s[k])
  }

  /** The language of `/^[^\s@]+@[^\s@]+\.[^\s@]+$/`: an `@` at position i and a `.` at a later
      position j cut the whole string into three non-empty runs of characters that are neither
      whitespace nor `@`. */
  ghost predicate MatchesEmailPattern(s: string) {
    exists i, j :: 0 < i && i + 1 < j && j + 1 < |s| && s[i] == '@' && s[j] == '.'
      && AllPlain(s[..i]) && AllPlain(s[i + 1..j]) && AllPlain(s[j + 1..])
  }

  /** Position of the first `@`, or |s| when there is none. */
  function IndexOfAt(s: string): (r: nat)
    ensures r <= |s|
    ensures forall k :: 0 <= k < r ==> s[k] != '@'
    ensures r < |s| ==> s[r] == '@'
  {
    if s == [] then 0
    else if s[0] == '@' then 0
    else 1 + IndexOfAt(s[1..])
  }

  predicate AtFree(s: string) {
    forall k :: 0 <= k < |s| ==> s[k] != '@'
  }

  /** `d` has a `.` that is neither its first nor its last character. */
  predicate HasInteriorDot(d: string) {
    exists k :: 0 < k < |d| - 1 && d[k] == '.'
  }

  /** `isValidEmail`: no whitespace, exactly one `@`, something before it, and a `.` strictly
      inside the part after it. */
  predicate IsValidEmail(s: string) {
    var i := IndexOfAt(s);
    && NoWhitespace(s)
    && 0 < i < |s|
    && AtFree(s[i + 1..])
    && HasInteriorDot(s[i + 1..])
  }

  /** The test is exactly the regular expression's language. */
  lemma EmailMatchesPattern(s: string)
    ensures IsValidEmail(s) <==> MatchesEmailPattern(s)
  {
    if IsValidEmail(s) {
      var i := IndexOfAt(s);
      var d := s[i + 1..];
      var k :| 0 < k < |d| - 1 && d[k] == '.';
      var j := i + 1 + k;
      assert s[j] == '.';
      assert s[i + 1..j] == d[..k];
      assert s[j + 1..] == d[k + 1..];
      assert AllPlain(s[..i]);
      assert AllPlain(s[i + 1..j]);
      assert AllPlain(s[j + 1..]);
    }
    if MatchesEmailPattern(s) {
      var i, j :| 0 < i && i + 1 < j && j + 1 < |s| && s[i] == '@' && s[j] == '.'
        && AllPlain(s[..i]) && AllPlain(s[i + 1..j]) && AllPlain(s[j + 1..]);
      PatternParts(s, i, j);
    }
  }

  lemma PatternParts(s: string, i: nat, j: nat)
    requires 0 < i && i + 1 < j && j + 1 < |s| && s[i] == '@' && s[j] == '.'
    requires AllPlain(s[..i]) && AllPlain(s[i + 1..j]) && AllPlain(s[j + 1..])
    ensures IsValidEmail(s)
  {
    forall k | 0 <= k < i ensures s[k] != '@' {
      assert s[k] == s[..i][k];
    }
    assert IndexOfAt(s) == i;
    var d := s[i + 1..];
    forall k | 0 <= k < |d| ensures d[k] != '@' && !IsWhitespace(d[k]) {
      if i + 1 + k < j {
        assert d[k] == s[i + 1..j][k];
      } else if i + 1 + k > j {
        assert d[k] == s[j + 1..][k - (j - i)];
      }
    }
    assert d[j - i - 1] == '.';
    forall k | 0 <= k < |s| ensures !IsWhitespace(s[k]) {
      if k < i {
        assert s[k] == s[..i][k];
      } else if k > i {
        assert s[k] == d[k - i - 1];
      }
    }
  }

  // ---------------------------------------------------------------------------
  // Form validation
  // ---------------------------------------------------------------------------

  const EmailRequired := "Email is required"
  const EmailInvalid := "Please enter a valid email address"
  const PasswordRequired := "Password is required"
  const PasswordTooShort := "Password must be at least 6 characters"

  /** The errors object: a field's message, or None when the object has no key for it. */
  datatype Validation = Validation(emailError: Option<string>, passwordError: Option<string>)

  /** `isValid`: the errors object has no keys. */
  predicate IsValid(v: Validation) {
    v.emailError.None? && v.passwordError.None?
  }

  /** The message the submit handler shows: the first value of the errors object, in key
      insertion order (email before password). */
  function FirstError(v: Validation): Option<string> {
    if v.emailError.Some? then v.emailError else v.passwordError
  }

  /** `validateForm` on the raw field values (both are trimmed first). A blank email is reported
      as missing, never as malformed; a blank password as missing; a password shorter than six
      UTF-16 units as too short. */
  function ValidateLogin(rawEmail: string, rawPassword: string): (v: Validation)
    ensures IsBlank(rawEmail) ==> v.emailError == Some(EmailRequired)
    ensures !IsBlank(rawEmail) && !IsValidEmail(Trim(rawEmail)) ==> v.emailError == Some(EmailInvalid)
    ensures !IsBlank(rawEmail) && IsValidEmail(Trim(rawEmail)) ==> v.emailError.None?
    ensures IsBlank(rawPassword) ==> v.passwordError == Some(PasswordRequired)
    ensures !IsBlank(rawPassword) && Utf16Length(Trim(rawPassword)) < 6 ==> v.passwordError == Some(PasswordTooShort)
    ensures Utf16Length(Trim(rawPassword)) >= 6 ==> v.passwordError.None?
    ensures IsValid(v) <==> IsValidEmail(Trim(rawEmail)) && Utf16Length(Trim(rawPassword)) >= 6
    ensures !IsValid(v) ==> FirstError(v).Some?
  {
    var email := Trim(rawEmail);
    var password := Trim(rawPassword);
    var emailError :=
      if email == [] then Some(EmailRequired)
      else if !IsValidEmail(email) then Some(EmailInvalid)
      else None;
    var passwordError :=
      if password == [] then Some(PasswordRequired)
      else if Utf16Length(password) < 6 then Some(PasswordTooShort)
      else None;
    Validation(emailError, passwordError)
  }

  // ---------------------------------------------------------------------------
  // Simulated login
  // ---------------------------------------------------------------------------

  datatype DemoAccount = AdminAccount | CashierAccount | SalesmanAccount

  datatype Credential = Credential(email: string, password: string, role: string)

  /** The hard-coded `demoCredentials` records. */
  function DemoCredential(a: DemoAccount): Credential {
    match a
    case AdminAccount => Credential("admin@admin.com", "12345678", "Admin")
    case CashierAccount => Credential("cashier@cashier.com", "12345678", "Cashier")
    case SalesmanAccount => Credential("sales@salesman.com", "12345678", "Salesman")
  }

  /** The records in `Object.values` order, the order the login search tries them. */
  const DemoOrder: seq<DemoAccount> := [AdminAccount, CashierAccount, SalesmanAccount]

  /** The `data-role` key of each record. */
  function DemoByKey(key: string): (r: Option<DemoAccount>)
    ensures r == Some(AdminAccount) <==> key == "admin"
    ensures r == Some(CashierAccount) <==> key == "cashier"
    ensures r == Some(SalesmanAccount) <==> key == "salesman"
  {
    if key == "admin" then Some(AdminAccount)
    else if key == "cashier" then Some(CashierAccount)
    else if key == "salesman" then Some(SalesmanAccount)
    else None
  }

  predicate Matches(a: DemoAccount, email: string, password: string) {
    DemoCredential(a).email == email && DemoCredential(a).password == password
  }

  /** The three demo emails are distinct, so at most one record matches any login. */
  lemma AtMostOneMatch(a: DemoAccount, b: DemoAccount, email: string, password: string)
    requires Matches(a, email, password) && Matches(b, email, password)
    ensures a == b
  {
  }

  /** Every record appears in the search order. */
  lemma AllAccountsListed()
    ensures forall a :: a in DemoOrder
  {
    forall a ensures a in DemoOrder {
      match a
      case AdminAccount => assert DemoOrder[0] == a;
      case CashierAccount => assert DemoOrder[1] == a;
      case SalesmanAccount => assert DemoOrder[2] == a;
    }
  }

  /** `find`: the first record in `order` whose email and password both equal the input. */
  function FindCredential(order: seq<DemoAccount>, email: string, password: string): (r: Option<DemoAccount>)
    ensures r.Some? ==> r.value in order && Matches(r.value, email, password)
    ensures r.None? ==> forall a :: a in order ==> !Matches(a, email, password)
  {
    if order == [] then None
    else if Matches(order[0], email, password) then Some(order[0])
    else FindCredential(order[1..], email, password)
  }

  /** The display name the login gives each role. */
  function NameForRole(role: string): string {
    if role == "Admin" then "System Administrator"
    else if role == "Cashier" then "Store Cashier"
    else "Sales Representative"
  }

  datatype User = User(email: string, role: string, name: string)

  function UserFor(a: DemoAccount): User {
    var c := DemoCredential(a);
    User(c.email, c.role, NameForRole(c.role))
  }

  const InvalidCredentials := "Invalid credentials. Please use demo credentials or contact your administrator."
  const LoginFailedMessage := "Login failed. Please check your credentials and try again."

  datatype LoginResult = LoggedIn(user: User) | LoginFailed(message: string)

  /** `simulateLogin`: succeeds exactly when the pair equals a demo record, returning that
      record's user; otherwise fails, with the "invalid credentials" message when the email
      passes the test and the password has at least six UTF-16 units, and the generic message
      otherwise. */
  function SimulateLogin(email: string, password: string): (r: LoginResult)
    ensures r.LoggedIn? <==> exists a :: Matches(a, email, password)
    ensures forall a :: Matches(a, email, password) ==> r == LoggedIn(UserFor(a))
    ensures r.LoginFailed? && IsValidEmail(email) && Utf16Length(password) >= 6 ==>
      r.message == InvalidCredentials
    ensures r.LoginFailed? && !(IsValidEmail(email) && Utf16Length(password) >= 6) ==>
      r.message == LoginFailedMessage
  {
    var found := FindCredential(DemoOrder, email, password);
    if found.Some? then
      forall a | Matches(a, email, password) ensures a == found.value {
        AtMostOneMatch(a, found.value, email, password);
      }
      LoggedIn(UserFor(found.value))
    else
      AllAccountsListed();
      if IsValidEmail(email) && Utf16Length(password) >= 6 then LoginFailed(InvalidCredentials)
      else LoginFailed(LoginFailedMessage)
  }

  /** Each role's display name. */
  lemma RoleNames()
    ensures UserFor(AdminAccount).name == "System Administrator"
    ensures UserFor(CashierAccount).name == "Store Cashier"
    ensures UserFor(SalesmanAccount).name == "Sales Representative"
    ensures forall a :: UserFor(a).role == DemoCredential(a).role
  {
  }

  // ---------------------------------------------------------------------------
  // Submitting the form
  // ---------------------------------------------------------------------------

  datatype SubmitOutcome = Rejected(message: string) | Attempted(result: LoginResult)

  /** The submit handler: an invalid form shows its first error and does not try to log in;
      a valid one logs in with the trimmed values. */
  function Submit(rawEmail: string, rawPassword: string): (r: SubmitOutcome)
    ensures r.Rejected? <==> !IsValid(ValidateLogin(rawEmail, rawPassword))
    ensures r.Rejected? ==> Some(r.message) == FirstError(ValidateLogin(rawEmail, rawPassword))
    ensures r.Attempted? ==> r.result == SimulateLogin(Trim(rawEmail), Trim(rawPassword))
  {
    var v := ValidateLogin(rawEmail, rawPassword);
    if !IsValid(v) then Rejected(FirstError(v).value)
    else Attempted(SimulateLogin(Trim(rawEmail), Trim(rawPassword)))
  }

  /** Through the form, the generic "Login failed" message is unreachable: a form that passes
      validation has a valid email and a long enough password, so a failed attempt always
      reports invalid credentials. */
  lemma SubmitNeverReportsLoginFailed(rawEmail: string, rawPassword: string)
    ensures var r := Submit(rawEmail, rawPassword);
            r.Attempted? && r.result.LoginFailed? ==> r.result.message == InvalidCredentials
  {
  }

  /** An empty email field is reported as missing, not as malformed, and that message is the
      one shown even when the password is also wrong. */
  lemma BlankEmailShownFirst(rawEmail: string, rawPassword: string)
    requires IsBlank(rawEmail)
    ensures Submit(rawEmail, rawPassword) == Rejected(EmailRequired)
  {
  }

  /** `s` matches the email pattern when it has an `@` at i, a `.` at a later j with at least one
      character between them and after j, and every other character is plain. */
  lemma EmailByPositions(s: string, i: nat, j: nat)
    requires 0 < i && i + 1 < j && j + 1 < |s| && s[i] == '@' && s[j] == '.'
    requires forall k :: 0 <= k < |s| && k != i && k != j ==> Plain(s[k])
    ensures IsValidEmail(s)
  {
    assert AllPlain(s[..i]);
    assert AllPlain(s[i + 1..j]);
    assert AllPlain(s[j + 1..]);
    PatternParts(s, i, j);
  }

  lemma AdminReady()
    ensures IsValidEmail("admin@admin.com")
    ensures Trim("admin@admin.com") == "admin@admin.com"
  {
    EmailByPositions("admin@admin.com", 5, 11);
    assert NoWhitespace("admin@admin.com");
  }

  lemma CashierReady()
    ensures IsValidEmail("cashier@cashier.com")
    ensures Trim("cashier@cashier.com") == "cashier@cashier.com"
  {
    EmailByPositions("cashier@cashier.com", 7, 15);
    assert NoWhitespace("cashier@cashier.com");
  }

  lemma SalesmanReady()
    ensures IsValidEmail("sales@salesman.com")
    ensures Trim("sales@salesman.com") == "sales@salesman.com"
  {
    EmailByPositions("sales@salesman.com", 5, 14);
    assert NoWhitespace("sales@salesman.com");
  }

  lemma PasswordReady()
    ensures Trim("12345678") == "12345678"
    ensures Utf16Length("12345678") == 8
  {
    var p := "12345678";
    forall k | 0 <= k < |p| ensures '0' <= p[k] <= '9' { }
    assert NoWhitespace(p);
  }

  /** Every demo email passes the email test, and trimming leaves each demo record as it is. */
  lemma DemoFieldsReady(a: DemoAccount)
    ensures IsValidEmail(DemoCredential(a).email)
    ensures Trim(DemoCredential(a).email) == DemoCredential(a).email
    ensures Trim(DemoCredential(a).password) == DemoCredential(a).password
    ensures Utf16Length(DemoCredential(a).password) == 8
    ensures IsValidEmail(Trim(DemoCredential(a).email))
    ensures Utf16Length(Trim(DemoCredential(a).password)) == 8
  {
    PasswordReady();
    match a
    case AdminAccount => AdminReady();
    case CashierAccount => CashierReady();
    case SalesmanAccount => SalesmanReady();
  }

  /** A pair that passes validation and, once trimmed, equals a demo record logs in as that
      record's user. */
  lemma SubmitMatching(email: string, password: string, a: DemoAccount)
    requires IsValid(ValidateLogin(email, password))
    requires Matches(a, Trim(email), Trim(password))
    ensures Submit(email, password) == Attempted(LoggedIn(UserFor(a)))
  {
  }

  /** A pair whose trimmed email passes the email test and whose trimmed password is at least
      six units long passes validation. */
  lemma ReadyValidates(email: string, password: string)
    requires IsValidEmail(Trim(email)) && Utf16Length(Trim(password)) >= 6
    ensures IsValid(ValidateLogin(email, password))
  {
  }

  /** Every demo record passes the form validation. */
  lemma DemoValidates(a: DemoAccount)
    ensures IsValid(ValidateLogin(DemoCredential(a).email, DemoCredential(a).password))
    ensures Matches(a, Trim(DemoCredential(a).email), Trim(DemoCredential(a).password))
  {
    DemoFieldsReady(a);
    ReadyValidates(DemoCredential(a).email, DemoCredential(a).password);
  }

  /** Filling the form from any demo record (the demo item click or its keyboard shortcut) and
      submitting logs in as that record's user. */
  lemma DemoCredentialsLogIn(a: DemoAccount)
    ensures Submit(DemoCredential(a).email, DemoCredential(a).password) == Attempted(LoggedIn(UserFor(a)))
  {
    DemoValidates(a);
    SubmitMatching(DemoCredential(a).email, DemoCredential(a).password, a);
  }

  // ---------------------------------------------------------------------------
  // Demo items
  // ---------------------------------------------------------------------------

  /** The raw values of the email and password fields. */
  datatype LoginFields = LoginFields(email: string, password: string)

  /** A click (or Enter/Space) on a demo item: when its `data-role` key names a demo record, the
      record's email and password are written into the fields; any other key leaves them. */
  function AutoFill(key: string, fields: LoginFields): (r: LoginFields)
    ensures DemoByKey(key).None? ==> r == fields
    ensures DemoByKey(key).Some? ==> Matches(DemoByKey(key).value, r.email, r.password)
  {
    match DemoByKey(key)
    case None => fields
    case Some(a) => LoginFields(DemoCredential(a).email, DemoCredential(a).password)
  }

  /** Whatever the fields held, clicking the demo item for "admin", "cashier" or "salesman" and
      then submitting logs in as that record's role; an item with any other key submits the
      fields unchanged. */
  lemma DemoItemLogsIn(key: string, fields: LoginFields)
    ensures DemoByKey(key).Some? <==> key == "admin" || key == "cashier" || key == "salesman"
    ensures DemoByKey(key).Some? ==>
      var f := AutoFill(key, fields);
      var a := DemoByKey(key).value;
      Submit(f.email, f.password) == Attempted(LoggedIn(UserFor(a)))
      && UserFor(a).role == DemoCredential(a).role
    ensures DemoByKey(key).None? ==> AutoFill(key, fields) == fields
  {
    if DemoByKey(key).Some? {
      var a := DemoByKey(key).value;
      DemoCredentialsLogIn(a);
      RoleNames();
    }
  }
}

=== FILE: settings_form.dfy ===
/**
 * The edits the settings page makes to its settings object: colour entry, the
 * company and UI forms, function toggles, the logo, the form validator, and
 * the rule that dims dashboard menu items of disabled functions.
 */
module SettingsForm {
  import opened Wrappers
  import opened Text
  import opened SettingsModel

  // ---------------------------------------------------------------------------
  // Colours
  // ---------------------------------------------------------------------------

  predicate IsHexDigit(c: char) {
    '0' <= c <= '9' || 'a' <= c <= 'f' || 'A' <= c <= 'F'
  }

  /** The class `[0-9A-F]` as written, before the `i` flag is applied. */
  predicate InUpperHexClass(c: char) {
    '0' <= c <= '9' || 'A' <= c <= 'F'
  }

  /** The colour test `/^#[0-9A-F]{6}$/i`: `#` and exactly six hexadecimal digits. */
  predicate IsHexColor(c: string) {
    |c| == 7 && c[0] == '#' && forall k :: 1 <= k < 7 ==> IsHexDigit(c[k])
  }

  /** Under the `i` flag a character matches `[0-9A-F]` exactly when its upper-case form does,
      so the test accepts `#` followed by six characters whose upper-case forms are in the
      class as written. */
  lemma HexColorIsCaseInsensitiveClass(c: string)
    ensures IsHexColor(c) <==>
      |c| == 7 && c[0] == '#' && forall k :: 1 <= k < 7 ==> InUpperHexClass(AsciiUpper(c[k]))
  {
  }

  /** Changing the case of the letters never changes the verdict. */
  lemma HexColorIgnoresCase(c: string)
    ensures IsHexColor(c) <==> IsHexColor(LowerCase(c))
    ensures IsHexColor(c) <==> IsHexColor(UpperCase(c))
  {
  }

  datatype ColorSlot = Primary | Secondary | Success | Warning

  function GetColor(c: Colors, slot: ColorSlot): string {
    match slot
    case Primary => c.primary
    case Secondary => c.secondary
    case Success => c.success
    case Warning => c.warning
  }

  function SetColor(c: Colors, slot: ColorSlot, v: string): (r: Colors)
    ensures GetColor(r, slot) == v
    ensures forall other :: other != slot ==> GetColor(r, other) == GetColor(c, other)
  {
    match slot
    case Primary => c.(primary := v)
    case Secondary => c.(secondary := v)
    case Success => c.(success := v)
    case Warning => c.(warning := v)
  }

  predicate AllColorsValid(c: Colors) {
    IsHexColor(c.primary) && IsHexColor(c.secondary) && IsHexColor(c.success) && IsHexColor(c.warning)
  }

  /** The value an `<input type="color">` holds after its value is assigned, under the classic
      simple-colour sanitization: a valid simple colour (the same language as the test above) is
      kept in ASCII lower case, and anything else becomes "#000000". */
  function PickerValue(v: string): (r: string)
    ensures IsHexColor(r)
    ensures r == LowerCase(r)
    ensures IsHexColor(v) ==> LowerCase(v) == r
    ensures !IsHexColor(v) ==> r == "#000000"
  {
    if IsHexColor(v) then LowerCase(v) else "#000000"
  }

  /** The four pickers after `applySettingsToForm` copies the colour settings into them. */
  function PickersFor(c: Colors): (r: Colors)
    ensures AllColorsValid(r)
    ensures forall slot :: GetColor(r, slot) == PickerValue(GetColor(c, slot))
  {
    Colors(PickerValue(c.primary), PickerValue(c.secondary), PickerValue(c.success), PickerValue(c.warning))
  }

  /** `updateColorSettings`: the colour sub-record becomes the four picker values; nothing else
      changes. */
  function ReadColors(s: Settings, pickers: Colors): (r: Settings)
    ensures r.branding.colors == pickers
    ensures r.branding.logo == s.branding.logo
    ensures r.company == s.company && r.functions == s.functions && r.ui == s.ui && r.users == s.users
  {
    s.(branding := s.branding.(colors := pickers))
  }

  /** The result of a colour event: the new settings and the new picker values. */
  datatype ColorState = ColorState(settings: Settings, pickers: Colors)

  /** An `input` event on a colour picker: the picker holds its (sanitized) new value and the
      colour settings are read back from all four pickers. */
  function OnPickerInput(s: Settings, pickers: Colors, slot: ColorSlot, v: string): (r: ColorState)
    ensures GetColor(r.pickers, slot) == PickerValue(v)
    ensures forall other :: other != slot ==> GetColor(r.pickers, other) == GetColor(pickers, other)
    ensures r.settings.branding.colors == r.pickers
    ensures r.settings == ReadColors(s, r.pickers)
  {
    var p := SetColor(pickers, slot, PickerValue(v));
    ColorState(ReadColors(s, p), p)
  }

  /** An `input` event on a colour text field: a text that fails the colour test changes nothing;
      one that passes is assigned to the picker and the colour settings are read back. */
  function OnColorText(s: Settings, pickers: Colors, slot: ColorSlot, text: string): (r: ColorState)
    ensures !IsHexColor(text) ==> r == ColorState(s, pickers)
    ensures IsHexColor(text) ==>
      && GetColor(r.pickers, slot) == LowerCase(text)
      && (forall other :: other != slot ==> GetColor(r.pickers, other) == GetColor(pickers, other))
      && r.settings.branding.colors == r.pickers
      && r.settings == ReadColors(s, r.pickers)
  {
    if IsHexColor(text) then OnPickerInput(s, pickers, slot, text) else ColorState(s, pickers)
  }

  /** Pickers always hold valid colours, so after a picker event, or a text event whose text
      passes the colour test, every colour setting passes the test too; a rejected text leaves
      the settings as they were. */
  lemma ColorEventsKeepColorsValid(s: Settings, pickers: Colors, slot: ColorSlot, v: string)
    requires AllColorsValid(pickers)
    ensures AllColorsValid(OnPickerInput(s, pickers, slot, v).settings.branding.colors)
    ensures AllColorsValid(OnColorText(s, pickers, slot, v).pickers)
    ensures IsHexColor(v) ==> AllColorsValid(OnColorText(s, pickers, slot, v).settings.branding.colors)
  {
    var p := SetColor(pickers, slot, PickerValue(v));
    assert forall other :: IsHexColor(GetColor(p, other));
    assert IsHexColor(GetColor(p, Primary)) && IsHexColor(GetColor(p, Secondary));
    assert IsHexColor(GetColor(p, Success)) && IsHexColor(GetColor(p, Warning));
  }

  // ---------------------------------------------------------------------------
  // Company and UI forms
  // ---------------------------------------------------------------------------

  /** The company form's field values; `taxRate` is the number `parseFloat` reads from its field,
      None when it reads none (NaN). */
  datatype CompanyForm = CompanyForm(
    name: string,
    email: string,
    phone: string,
    address: string,
    businessType: string,
    currency: string,
    taxRate: Option<real>,
    timezone: string)

  /** `updateCompanySettings`: the company sub-record is rebuilt from the form. The tax rate is
      `parseFloat(value) || 0`: an unreadable number becomes 0 and any number read is stored as
      is, with no range check. */
  function ReadCompany(s: Settings, f: CompanyForm): (r: Settings)
    ensures r.company.name == f.name && r.company.email == f.email && r.company.phone == f.phone
    ensures r.company.address == f.address && r.company.businessType == f.businessType
    ensures r.company.currency == f.currency && r.company.timezone == f.timezone
    ensures f.taxRate.None? ==> r.company.taxRate == 0.0
    ensures f.taxRate.Some? ==> r.company.taxRate == f.taxRate.value
    ensures r.branding == s.branding && r.functions == s.functions && r.ui == s.ui && r.users == s.users
  {
    s.(company := Company(
      f.name, f.email, f.phone, f.address, f.businessType, f.currency,
      f.taxRate.GetOr(0.0), f.timezone))
  }

  datatype UiForm = UiForm(sidebarMode: string, theme: string, dashboardLayout: string, animationSpeed: string)

  /** `updateUISettings`: the UI sub-record is rebuilt from the four selects; nothing else changes. */
  function ReadUi(s: Settings, f: UiForm): (r: Settings)
    ensures r.ui.sidebarMode == f.sidebarMode && r.ui.theme == f.theme
    ensures r.ui.dashboardLayout == f.dashboardLayout && r.ui.animationSpeed == f.animationSpeed
    ensures r.company == s.company && r.branding == s.branding && r.functions == s.functions && r.users == s.users
  {
    s.(ui := Ui(f.sidebarMode, f.theme, f.dashboardLayout, f.animationSpeed))
  }

  // ---------------------------------------------------------------------------
  // Functions
  // ---------------------------------------------------------------------------

  /** `toggleFunction(key)`: flips the enabled flag of a known function and nothing else; an
      unknown key changes nothing. */
  function ToggleFunction(s: Settings, key: string): (r: Settings)
    ensures key !in s.functions ==> r == s
    ensures r.functions.Keys == s.functions.Keys
    ensures key in s.functions ==>
      && r.functions[key].enabled == !s.functions[key].enabled
      && r.functions[key].name == s.functions[key].name
      && r.functions[key].description == s.functions[key].description
    ensures forall k :: k in s.functions && k != key ==> r.functions[k] == s.functions[k]
    ensures r.company == s.company && r.branding == s.branding && r.ui == s.ui && r.users == s.users
  {
    if key in s.functions then
      var e := s.functions[key];
      s.(functions := s.functions[key := e.(enabled := !e.enabled)])
    else s
  }

  /** Toggling the same key twice restores the settings. */
  lemma ToggleTwiceIsIdentity(s: Settings, key: string)
    ensures ToggleFunction(ToggleFunction(s, key), key) == s
  {
    var r := ToggleFunction(ToggleFunction(s, key), key);
    assert r.functions == s.functions;
  }

  /** Toggles of different keys commute. */
  lemma TogglesCommute(s: Settings, a: string, b: string)
    ensures ToggleFunction(ToggleFunction(s, a), b) == ToggleFunction(ToggleFunction(s, b), a)
  {
    var x := ToggleFunction(ToggleFunction(s, a), b);
    var y := ToggleFunction(ToggleFunction(s, b), a);
    assert x.functions == y.functions;
  }

  // ---------------------------------------------------------------------------
  // Logo
  // ---------------------------------------------------------------------------

  /** The upload size ceiling: 2 MiB. */
  const MaxLogoBytes: nat := 2 * 1024 * 1024

  /** A picked file: its size in bytes and the data URL the file reader produces for it. */
  datatype LogoFile = LogoFile(size: nat, dataUrl: string)

  datatype LogoOutcome = LogoOutcome(settings: Settings, toast: Option<Toast>)

  /** `handleLogoUpload`: no file does nothing; a file over 2 MiB is refused with an error toast
      and the logo is kept; otherwise the file's data URL becomes the logo. */
  function UploadLogo(s: Settings, file: Option<LogoFile>): (r: LogoOutcome)
    ensures file.None? ==> r == LogoOutcome(s, None)
    ensures file.Some? && file.value.size > MaxLogoBytes ==>
      r.settings == s && r.toast.Some? && r.toast.value.kind == ErrorToast
    ensures file.Some? && file.value.size <= MaxLogoBytes ==>
      && r.settings.branding.logo == Some(file.value.dataUrl)
      && r.toast.Some? && r.toast.value.kind == SuccessToast
    ensures r.settings.branding.colors == s.branding.colors
    ensures r.settings.company == s.company && r.settings.functions == s.functions
    ensures r.settings.ui == s.ui && r.settings.users == s.users
  {
    match file
    case None => LogoOutcome(s, None)
    case Some(f) =>
      if f.size > MaxLogoBytes then
        LogoOutcome(s, Some(Toast("Logo file too large! Please select a file under 2MB.", ErrorToast)))
      else
        LogoOutcome(s.(branding := s.branding.(logo := Some(f.dataUrl))),
                    Some(Toast("Logo updated successfully!", SuccessToast)))
  }

  /** The boundary: a file of exactly 2 MiB is accepted, one byte more is refused. */
  lemma LogoLimitBoundary(s: Settings, url: string)
    ensures UploadLogo(s, Some(LogoFile(2097152, url))).settings.branding.logo == Some(url)
    ensures UploadLogo(s, Some(LogoFile(2097153, url))).settings == s
  {
  }

  /** `removeLogo`: the logo becomes none, whatever it was, and nothing else changes. */
  function RemoveLogo(s: Settings): (r: LogoOutcome)
    ensures r.settings.branding.logo.None?
    ensures r.settings.branding.colors == s.branding.colors
    ensures r.settings.company == s.company && r.settings.functions == s.functions
    ensures r.settings.ui == s.ui && r.settings.users == s.users
    ensures r.toast == Some(Toast("Logo removed!", SuccessToast))
  {
    LogoOutcome(s.(branding := s.branding.(logo := None)), Some(Toast("Logo removed!", SuccessToast)))
  }

  /** Removing the logo undoes any upload: whatever file was picked, upload then remove leaves
      the same settings as removing straight away. */
  lemma RemoveUndoesUpload(s: Settings, file: Option<LogoFile>)
    ensures RemoveLogo(UploadLogo(s, file).settings).settings == RemoveLogo(s).settings
  {
  }

  // ---------------------------------------------------------------------------
  // Validation
  // ---------------------------------------------------------------------------

  const NameRequired := "Company name is required"

  /** The message `Invalid ${key} color format` for a colour slot. */
  function ColorMessage(slot: ColorSlot): string {
    match slot
    case Primary => "Invalid primary color format"
    case Secondary => "Invalid secondary color format"
    case Success => "Invalid success color format"
    case Warning => "Invalid warning color format"
  }

  /** Distinct slots have distinct messages, and none of them is the name message. */
  lemma ColorMessagesDistinct(a: ColorSlot, b: ColorSlot)
    ensures ColorMessage(a) == ColorMessage(b) ==> a == b
    ensures ColorMessage(a) != NameRequired
  {
    assert ColorMessage(a)[8] != ColorMessage(b)[8] || ColorMessage(a)[9] != ColorMessage(b)[9] || a == b;
    assert ColorMessage(a)[0] != NameRequired[0];
  }

  /** The error one colour contributes: its message when it fails the test, nothing otherwise. */
  function SlotError(c: Colors, slot: ColorSlot): seq<string> {
    if IsHexColor(GetColor(c, slot)) then [] else [ColorMessage(slot)]
  }

  /** The colour errors in enumeration order. */
  function ColorErrors(c: Colors): seq<string> {
    SlotError(c, Primary) + SlotError(c, Secondary) + SlotError(c, Success) + SlotError(c, Warning)
  }

  /** The colour keys in `Object.entries` order, which is the order the settings literal declares
      them in. */
  const SlotOrder: seq<ColorSlot> := [Primary, Secondary, Success, Warning]

  /** What the `forEach` over the colour entries pushes while walking `slots`: the message of
      each failing colour, in walking order. */
  function FailingMessages(c: Colors, slots: seq<ColorSlot>): (m: seq<string>)
    ensures |m| <= |slots|
    ensures forall k :: 0 <= k < |m| ==> m[k] in ColorMessages
  {
    if slots == [] then []
    else
      (if IsHexColor(GetColor(c, slots[0])) then [] else [ColorMessage(slots[0])])
      + FailingMessages(c, slots[1..])
  }

  /** Walking `slots` pushes a colour's message exactly when that colour is walked and fails,
      and pushes nothing exactly when every walked colour passes. */
  lemma {:induction false} FailingMessagesExact(c: Colors, slots: seq<ColorSlot>)
    ensures forall slot :: ColorMessage(slot) in FailingMessages(c, slots) <==>
      slot in slots && !IsHexColor(GetColor(c, slot))
    ensures FailingMessages(c, slots) == [] <==>
      forall k :: 0 <= k < |slots| ==> IsHexColor(GetColor(c, slots[k]))
  {
    if slots != [] {
      FailingMessagesExact(c, slots[1..]);
      forall slot ensures ColorMessage(slot) in FailingMessages(c, slots) <==>
        slot in slots && !IsHexColor(GetColor(c, slot))
      {
        ColorMessagesDistinct(slots[0], slot);
        assert slot in slots <==> slot == slots[0] || slot in slots[1..];
      }
      if forall k :: 0 <= k < |slots| - 1 ==> IsHexColor(GetColor(c, slots[1..][k])) {
        forall k | 1 <= k < |slots| ensures IsHexColor(GetColor(c, slots[k])) {
          assert slots[k] == slots[1..][k - 1];
        }
      }
    }
  }

  /** The four colour messages. */
  const ColorMessages: set<string> :=
    {ColorMessage(Primary), ColorMessage(Secondary), ColorMessage(Success), ColorMessage(Warning)}

  /** The colour errors are what the entry walk pushes, in slot order. */
  lemma ColorErrorsInSlotOrder(c: Colors)
    ensures ColorErrors(c) == FailingMessages(c, SlotOrder)
  {
    var w: seq<ColorSlot> := [Warning];
    var sw: seq<ColorSlot> := [Success, Warning];
    var rest: seq<ColorSlot> := [Secondary, Success, Warning];
    assert w[1..] == [];
    assert FailingMessages(c, w) == SlotError(c, Warning);
    assert sw[1..] == w;
    assert FailingMessages(c, sw) == SlotError(c, Success) + SlotError(c, Warning);
    assert rest[1..] == sw;
    assert FailingMessages(c, rest) == SlotError(c, Secondary) + (SlotError(c, Success) + SlotError(c, Warning));
    assert SlotOrder[1..] == rest;
    assert FailingMessages(c, SlotOrder) ==
      SlotError(c, Primary) + (SlotError(c, Secondary) + (SlotError(c, Success) + SlotError(c, Warning)));
  }

  /** The shape of the error list: the name message appears once exactly when the name is blank,
      and after it come the failing colours' messages in slot order, nothing else. */
  lemma ErrorListShape(nameBlank: bool, c: Colors)
    ensures multiset(ErrorList(nameBlank, c))[NameRequired] == (if nameBlank then 1 else 0)
    ensures ErrorList(nameBlank, c) == (if nameBlank then [NameRequired] else []) + FailingMessages(c, SlotOrder)
    ensures forall k :: 0 <= k < |ErrorList(nameBlank, c)| ==>
      ErrorList(nameBlank, c)[k] == NameRequired || ErrorList(nameBlank, c)[k] in ColorMessages
  {
    ColorErrorsInSlotOrder(c);
    var m := FailingMessages(c, SlotOrder);
    HeadAndColorMessages(if nameBlank then [NameRequired] else [], m);
  }

  /** A list that starts with the name message at most once and continues with colour messages
      only holds the name message exactly as often as its head does. */
  lemma HeadAndColorMessages(head: seq<string>, m: seq<string>)
    requires head == [] || head == [NameRequired]
    requires forall k :: 0 <= k < |m| ==> m[k] in ColorMessages
    ensures multiset(head + m)[NameRequired] == |head|
    ensures forall k :: 0 <= k < |head + m| ==> (head + m)[k] == NameRequired || (head + m)[k] in ColorMessages
  {
    NameIsNoColorMessage();
    assert NameRequired !in m;
    assert multiset(head + m) == multiset(head) + multiset(m);
  }

  lemma NameIsNoColorMessage()
    ensures NameRequired !in ColorMessages
  {
    ColorMessagesDistinct(Primary, Primary);
    ColorMessagesDistinct(Secondary, Secondary);
    ColorMessagesDistinct(Success, Success);
    ColorMessagesDistinct(Warning, Warning);
  }

  /** `validateForm`: no errors exactly when the trimmed company name is non-empty and all four
      colours pass the test; the name error appears once exactly when the name is blank, and
      first; then each failing colour contributes its one message, in slot order. */
  function ValidateSettings(s: Settings): (errors: seq<string>)
    ensures errors == [] <==> !IsBlank(s.company.name) && AllColorsValid(s.branding.colors)
    ensures IsBlank(s.company.name) <==> errors != [] && errors[0] == NameRequired
    ensures |errors| <= 5
    ensures forall slot :: (multiset(errors)[ColorMessage(slot)] ==
      if IsHexColor(GetColor(s.branding.colors, slot)) then 0 else 1)
    ensures multiset(errors)[NameRequired] == (if IsBlank(s.company.name) then 1 else 0)
    ensures errors == (if IsBlank(s.company.name) then [NameRequired] else [])
                      + FailingMessages(s.branding.colors, SlotOrder)
    ensures forall k :: 0 <= k < |errors| ==> errors[k] == NameRequired || errors[k] in ColorMessages
  {
    var blank := IsBlank(s.company.name);
    ErrorListFacts(blank, s.branding.colors);
    ErrorListShape(blank, s.branding.colors);
    ErrorList(blank, s.branding.colors)
  }

  /** The name error (when `nameBlank`) followed by the colour errors. */
  function ErrorList(nameBlank: bool, c: Colors): seq<string> {
    (if nameBlank then [NameRequired] else []) + ColorErrors(c)
  }

  lemma ErrorListFacts(nameBlank: bool, c: Colors)
    ensures ErrorList(nameBlank, c) == [] <==> !nameBlank && AllColorsValid(c)
    ensures nameBlank <==> ErrorList(nameBlank, c) != [] && ErrorList(nameBlank, c)[0] == NameRequired
    ensures |ErrorList(nameBlank, c)| <= 5
    ensures forall slot :: (multiset(ErrorList(nameBlank, c))[ColorMessage(slot)] ==
      if IsHexColor(GetColor(c, slot)) then 0 else 1)
  {
    ColorErrorsFacts(c);
    var e := ErrorList(nameBlank, c);
    var head: seq<string> := if nameBlank then [NameRequired] else [];
    assert multiset(e) == multiset(head) + multiset(ColorErrors(c));
    forall slot ensures multiset(head)[ColorMessage(slot)] == 0 {
      ColorMessagesDistinct(slot, slot);
    }
  }

  lemma ColorErrorsFacts(c: Colors)
    ensures |ColorErrors(c)| <= 4
    ensures ColorErrors(c) == [] <==> AllColorsValid(c)
    ensures NameRequired !in multiset(ColorErrors(c))
    ensures ColorErrors(c) != [] ==> ColorErrors(c)[0] != NameRequired
    ensures forall slot :: (multiset(ColorErrors(c))[ColorMessage(slot)] ==
      if IsHexColor(GetColor(c, slot)) then 0 else 1)
  {
    forall slot ensures multiset(ColorErrors(c))[ColorMessage(slot)] ==
      (if IsHexColor(GetColor(c, slot)) then 0 else 1)
    {
      ColorCount(c, slot);
    }
    forall other ensures NameRequired !in multiset(SlotError(c, other)) {
      ColorMessagesDistinct(other, other);
    }
    if ColorErrors(c) != [] {
      assert ColorErrors(c)[0] in multiset(ColorErrors(c));
    }
  }

  lemma SlotCount(c: Colors, other: ColorSlot, slot: ColorSlot)
    ensures multiset(SlotError(c, other))[ColorMessage(slot)] ==
      (if other == slot && !IsHexColor(GetColor(c, slot)) then 1 else 0)
  {
    ColorMessagesDistinct(other, slot);
  }

  lemma ColorCount(c: Colors, slot: ColorSlot)
    ensures multiset(ColorErrors(c))[ColorMessage(slot)] ==
      (if IsHexColor(GetColor(c, slot)) then 0 else 1)
  {
    SlotCount(c, Primary, slot);
    SlotCount(c, Secondary, slot);
    SlotCount(c, Success, slot);
    SlotCount(c, Warning, slot);
    var m := ColorMessage(slot);
    assert multiset(ColorErrors(c)) == multiset(SlotError(c, Primary)) + multiset(SlotError(c, Secondary))
      + multiset(SlotError(c, Success)) + multiset(SlotError(c, Warning));
  }

  /** The default record passes validation. */
  lemma DefaultSettingsValid()
    ensures ValidateSettings(DefaultSettings) == []
  {
    DefaultNameNotBlank();
    DefaultColorsPass();
  }

  lemma DefaultNameNotBlank()
    ensures !IsBlank(DefaultSettings.company.name)
  {
    var name := DefaultCompany.name;
    assert !IsWhitespace(name[0]);
  }

  lemma DefaultColorsPass()
    ensures AllColorsValid(DefaultSettings.branding.colors)
  {
    assert DefaultSettings.branding.colors == DefaultColors;
  }

  // ---------------------------------------------------------------------------
  // Dashboard menu
  // ---------------------------------------------------------------------------

  /** A dashboard menu item: its `data-section` attribute (None when missing) and whether it is
      dimmed (half opacity, not clickable). */
  datatype MenuEntry = MenuEntry(section: Option<string>, dimmed: bool)

  /** The rule applies to an item whose section is non-empty and names a function. */
  predicate Governs(functions: map<string, FunctionEntry>, section: Option<string>) {
    section.Some? && section.value != "" && section.value in functions
  }

  function ApplyMenuRule(functions: map<string, FunctionEntry>, item: MenuEntry): MenuEntry {
    if Governs(functions, item.section) then
      item.(dimmed := !functions[item.section.value].enabled)
    else item
  }

  /** `updateDashboardMenu`: an item whose section names a function is dimmed exactly when that
      function is disabled; every other item is left as it was. */
  function UpdateDashboardMenu(functions: map<string, FunctionEntry>, items: seq<MenuEntry>): (r: seq<MenuEntry>)
    ensures |r| == |items|
    ensures forall i :: 0 <= i < |r| ==> r[i].section == items[i].section
    ensures forall i :: 0 <= i < |r| && Governs(functions, items[i].section) ==>
      (r[i].dimmed <==> !functions[items[i].section.value].enabled)
    ensures forall i :: 0 <= i < |r| && !Governs(functions, items[i].section) ==> r[i] == items[i]
  {
    seq(|items|, i requires 0 <= i < |items| => ApplyMenuRule(functions, items[i]))
  }

  /** Applying the rule again changes nothing. */
  lemma MenuRuleIdempotent(functions: map<string, FunctionEntry>, items: seq<MenuEntry>)
    ensures UpdateDashboardMenu(functions, UpdateDashboardMenu(functions, items)) ==
            UpdateDashboardMenu(functions, items)
  {
  }

  /** After toggling a function, exactly the items for that function change their dimmed state
      relative to the menu computed before the toggle. */
  lemma ToggleFlipsItsMenuItems(s: Settings, key: string, items: seq<MenuEntry>)
    requires key in s.functions
    ensures var before := UpdateDashboardMenu(s.functions, items);
            var after := UpdateDashboardMenu(ToggleFunction(s, key).functions, items);
            forall i :: 0 <= i < |items| ==>
              (after[i].dimmed != before[i].dimmed <==> items[i].section == Some(key) && key != "")
  {
  }
}

=== FILE: settings_model.dfy ===
/**
 * The settings object of the admin settings page: its five top-level
 * sub-records, the built-in default record, and the shallow top-level merge
 * `{ ...current, ...parsed }` that both loading and importing perform.
 */
module SettingsModel {
  import opened Wrappers

  /** The company sub-record; `businessType` is the source's `type` key. */
  datatype Company = Company(
    name: string,
    email: string,
    phone: string,
    address: string,
    businessType: string,
    currency: string,
    taxRate: real,
    timezone: string)

  /** The four theme colours, in the order the page enumerates them. */
  datatype Colors = Colors(primary: string, secondary: string, success: string, warning: string)

  /** A logo is a data URL produced by the file reader, or none. */
  datatype Branding = Branding(logo: Option<string>, colors: Colors)

  /** One business function: whether it is enabled, plus its display metadata. */
  datatype FunctionEntry = FunctionEntry(enabled: bool, name: string, description: string)

  datatype Ui = Ui(sidebarMode: string, theme: string, dashboardLayout: string, animationSpeed: string)

  datatype Role = Role(name: string, level: string, permissions: seq<string>)

  datatype Users = Users(roles: seq<Role>)

  /** The whole settings object. */
  datatype Settings = Settings(
    company: Company,
    branding: Branding,
    functions: map<string, FunctionEntry>,
    ui: Ui,
    users: Users)

  datatype ToastKind = SuccessToast | ErrorToast

  /** A short banner message shown to the user. */
  datatype Toast = Toast(message: string, kind: ToastKind)

  const DefaultCompany := Company(
    "Xyz Computers", "info@xyzcomputers.com", "+1 (555) 123-4567",
    "123 Business Street, City, State 12345", "retail", "USD", 10.0, "UTC")

  const DefaultColors := Colors("#0D6EFD", "#6C757D", "#198754", "#FFC107")

  const DefaultFunctions: map<string, FunctionEntry> := map[
    "sales" := FunctionEntry(true, "Sales", "Manage sales transactions and invoices"),
    "quotation" := FunctionEntry(true, "Quotation", "Create and manage customer quotes"),
    "purchase" := FunctionEntry(true, "Purchase", "Manage purchase orders and inventory"),
    "warranty" := FunctionEntry(true, "Warranty", "Track product warranties and returns"),
    "customer" := FunctionEntry(true, "Customer", "Manage customer information and records"),
    "supplier" := FunctionEntry(true, "Supplier", "Manage supplier information and contacts"),
    "salesperson" := FunctionEntry(true, "Sales Person", "Track sales team performance"),
    "product" := FunctionEntry(true, "Product", "Manage product catalog and inventory"),
    "accounting" := FunctionEntry(true, "Accounting", "Financial management and reporting"),
    "hrm" := FunctionEntry(false, "HRM", "Human resource management"),
    "salary" := FunctionEntry(false, "Salary", "Payroll and salary management"),
    "gst" := FunctionEntry(true, "GST Report", "Tax reporting and compliance"),
    "loan" := FunctionEntry(false, "Loan Management", "Manage business loans and financing"),
    "reports" := FunctionEntry(true, "Reports", "Business intelligence and analytics"),
    "sms" := FunctionEntry(false, "SMS & Email", "Communication management"),
    "usermanagement" := FunctionEntry(false, "User Management", "System user administration"),
    "store" := FunctionEntry(true, "Store Management", "Multi-location store management"),
    "settings" := FunctionEntry(true, "Setting", "System configuration and settings"),
    "storechange" := FunctionEntry(true, "Store Change", "Switch between store locations")
  ]

  const DefaultUi := Ui("auto", "light", "grid", "normal")

  const DefaultUsers := Users([
    Role("Administrator", "admin", ["all"]),
    Role("Manager", "manager", ["sales", "reports", "customer", "product"]),
    Role("Employee", "employee", ["sales", "customer", "product"])
  ])

  /** The literal the settings page starts from on every page load. */
  const DefaultSettings := Settings(
    DefaultCompany, Branding(None, DefaultColors), DefaultFunctions, DefaultUi, DefaultUsers)

  /** The names of the functions the default record starts with disabled. */
  const DefaultDisabled: set<string> := {"hrm", "salary", "loan", "sms", "usermanagement"}

  /** The default record's observable facts: the company, no logo, and which of its functions
      start disabled. */
  lemma DefaultSettingsFacts()
    ensures DefaultSettings.company.name == "Xyz Computers"
    ensures DefaultSettings.company.taxRate == 10.0
    ensures DefaultSettings.branding.logo.None?
    ensures DefaultDisabled <= DefaultSettings.functions.Keys
    ensures forall k :: k in DefaultDisabled ==> !DefaultSettings.functions[k].enabled
    ensures forall k :: k in DefaultSettings.functions && !DefaultSettings.functions[k].enabled ==>
      k in DefaultDisabled
    ensures DefaultSettings.functions["sales"].enabled
    ensures |DefaultSettings.users.roles| == 3
  {
    DefaultFunctionFacts();
  }

  lemma OnlyDefaultDisabledAreOff()
    ensures forall k :: k in DefaultFunctions && !DefaultFunctions[k].enabled ==> k in DefaultDisabled
  {
  }

  lemma DefaultFunctionFacts()
    ensures DefaultDisabled <= DefaultFunctions.Keys
    ensures forall k :: k in DefaultDisabled ==> !DefaultFunctions[k].enabled
    ensures forall k :: k in DefaultFunctions && !DefaultFunctions[k].enabled ==> k in DefaultDisabled
    ensures DefaultFunctions["sales"].enabled
  {
    OnlyDefaultDisabledAreOff();
    assert DefaultFunctions["hrm"].enabled == false;
    assert DefaultFunctions["salary"].enabled == false;
    assert DefaultFunctions["loan"].enabled == false;
    assert DefaultFunctions["sms"].enabled == false;
    assert DefaultFunctions["usermanagement"].enabled == false;
  }

  /** The top-level keys a parsed JSON settings object carries; a key it does not carry is None. */
  datatype Patch = Patch(
    company: Option<Company>,
    branding: Option<Branding>,
    functions: Option<map<string, FunctionEntry>>,
    ui: Option<Ui>,
    users: Option<Users>)

  /** A parsed object with none of the five keys (for instance `{}` or `null`). */
  const EmptyPatch := Patch(None, None, None, None, None)

  /** `{ ...current, ...parsed }`: each top-level key present in the parsed object replaces the
      whole sub-record; each absent key keeps the current sub-record. Nothing is merged below
      the top level. */
  function Merge(current: Settings, p: Patch): (r: Settings)
    ensures p.company.Some? ==> r.company == p.company.value
    ensures p.company.None? ==> r.company == current.company
    ensures p.branding.Some? ==> r.branding == p.branding.value
    ensures p.branding.None? ==> r.branding == current.branding
    ensures p.functions.Some? ==> r.functions == p.functions.value
    ensures p.functions.None? ==> r.functions == current.functions
    ensures p.ui.Some? ==> r.ui == p.ui.value
    ensures p.ui.None? ==> r.ui == current.ui
    ensures p.users.Some? ==> r.users == p.users.value
    ensures p.users.None? ==> r.users == current.users
  {
    Settings(
      p.company.GetOr(current.company),
      p.branding.GetOr(current.branding),
      p.functions.GetOr(current.functions),
      p.ui.GetOr(current.ui),
      p.users.GetOr(current.users))
  }

  /** The object `JSON.stringify` writes for `s`: every top-level key present. */
  function Snapshot(s: Settings): (p: Patch)
    ensures p.company.Some? && p.branding.Some? && p.functions.Some? && p.ui.Some? && p.users.Some?
  {
    Patch(Some(s.company), Some(s.branding), Some(s.functions), Some(s.ui), Some(s.users))
  }

  /** Later keys win: merging `p` and then `q` is one merge with `q`'s keys laid over `p`'s. */
  function Overlay(p: Patch, q: Patch): (r: Patch)
    ensures q.company.Some? ==> r.company == q.company
    ensures q.company.None? ==> r.company == p.company
    ensures q.functions.Some? ==> r.functions == q.functions
    ensures q.functions.None? ==> r.functions == p.functions
    ensures q.branding.Some? ==> r.branding == q.branding
    ensures q.branding.None? ==> r.branding == p.branding
    ensures q.ui.Some? ==> r.ui == q.ui
    ensures q.ui.None? ==> r.ui == p.ui
    ensures q.users.Some? ==> r.users == q.users
    ensures q.users.None? ==> r.users == p.users
  {
    Patch(
      if q.company.Some? then q.company else p.company,
      if q.branding.Some? then q.branding else p.branding,
      if q.functions.Some? then q.functions else p.functions,
      if q.ui.Some? then q.ui else p.ui,
      if q.users.Some? then q.users else p.users)
  }

  /** A parsed object with no settings keys leaves the settings exactly as they were. */
  lemma MergeEmptyIsIdentity(s: Settings)
    ensures Merge(s, EmptyPatch) == s
  {
  }

  /** Merging a full snapshot yields that snapshot, whatever the settings were before:
      persisting and reloading, or exporting and importing, reproduces the settings. */
  lemma MergeSnapshot(current: Settings, s: Settings)
    ensures Merge(current, Snapshot(s)) == s
  {
  }

  /** Merging the same object twice is merging it once. */
  lemma MergeIdempotent(s: Settings, p: Patch)
    ensures Merge(Merge(s, p), p) == Merge(s, p)
  {
  }

  /** Two successive merges are one merge of the overlaid objects. */
  lemma MergeComposes(s: Settings, p: Patch, q: Patch)
    ensures Merge(Merge(s, p), q) == Merge(s, Overlay(p, q))
  {
  }
}

=== FILE: settings_store.dfy ===
/**
 * The settings page as a whole: its settings object, the one storage slot
 * (`smartposSettings`), and the four colour pickers that the form copies the
 * colours into. Loading, saving, resetting, importing and exporting are
 * modelled here; JSON text is abstracted to what `JSON.parse` makes of it.
 */
module SettingsStore {
  import opened Wrappers
  import opened Text
  import opened SettingsModel
  import opened SettingsForm

  /** Text in the storage slot or in an imported file, as `JSON.parse` sees it: the empty string
      (falsy, so loading skips it), an object carrying some of the top-level keys, or text that
      does not parse. */
  datatype StoredText = EmptyText | JsonText(patch: Patch) | Malformed

  /** `JSON.parse` threw. */
  datatype LoadError = ParseError

  /** The page state: the settings object, the storage slot (None when nothing is stored), and
      the values held by the four colour pickers. */
  datatype Page = Page(settings: Settings, slot: Option<StoredText>, pickers: Colors)

  /** A page transition and the toast it shows, if any. */
  datatype Step = Step(page: Page, toast: Option<Toast>)

  /** The merge step of `loadSettings`: nothing stored (or an empty string) leaves the settings
      as they are; stored JSON is merged over the current settings; text that does not parse
      makes the load throw before anything is assigned. */
  function LoadInto(current: Settings, slot: Option<StoredText>): (r: Result<Settings, LoadError>)
    ensures r.Err? <==> slot == Some(Malformed)
    ensures slot.None? || slot == Some(EmptyText) ==> r == Ok(current)
    ensures slot.Some? && slot.value.JsonText? ==> r == Ok(Merge(current, slot.value.patch))
  {
    match slot
    case None => Ok(current)
    case Some(EmptyText) => Ok(current)
    case Some(JsonText(p)) => Ok(Merge(current, p))
    case Some(Malformed) => Err(ParseError)
  }

  /** `applySettingsToForm`, as far as it feeds back into the model: the pickers take the
      (sanitized) colour settings. */
  function Refresh(s: Settings, slot: Option<StoredText>): (r: Page)
    ensures r.settings == s && r.slot == slot
    ensures AllColorsValid(r.pickers)
    ensures forall c :: GetColor(r.pickers, c) == PickerValue(GetColor(s.branding.colors, c))
  {
    Page(s, slot, PickersFor(s.branding.colors))
  }

  /** `loadSettings`: merge the stored object over the current settings and refresh the form. */
  function LoadSettings(p: Page): (r: Result<Page, LoadError>)
    ensures r.Err? <==> p.slot == Some(Malformed)
    ensures r.Ok? ==> r.value.slot == p.slot
    ensures r.Ok? && (p.slot.None? || p.slot == Some(EmptyText)) ==> r.value.settings == p.settings
    ensures r.Ok? && p.slot.Some? && p.slot.value.JsonText? ==>
      r.value.settings == Merge(p.settings, p.slot.value.patch)
    ensures r.Ok? ==> AllColorsValid(r.value.pickers)
  {
    match LoadInto(p.settings, p.slot)
    case Ok(s) => Ok(Refresh(s, p.slot))
    case Err(e) => Err(e)
  }

  /** `initializeSettings` on a fresh page load: start from the default literal, load, then read
      the colours back from the pickers. The result is the stored object merged over the
      defaults (the defaults alone when nothing is stored), with its colours sanitized by the
      pickers. If the stored text does not parse, the load throws and the rest of the
      initialisation does not run. */
  function Initialize(slot: Option<StoredText>, htmlPickers: Colors): (r: Page)
    ensures r.slot == slot
    ensures slot == Some(Malformed) ==> r == Page(DefaultSettings, slot, htmlPickers)
    ensures slot != Some(Malformed) ==>
      && AllColorsValid(r.settings.branding.colors)
      && r.settings.branding.colors == r.pickers
    ensures slot.Some? && slot.value.JsonText? ==>
      var m := Merge(DefaultSettings, slot.value.patch);
      && r.settings.company == m.company
      && r.settings.functions == m.functions
      && r.settings.ui == m.ui
      && r.settings.users == m.users
      && r.settings.branding.logo == m.branding.logo
      && r.settings.branding.colors == PickersFor(m.branding.colors)
    ensures slot.None? || slot == Some(EmptyText) ==>
      && r.settings.company == DefaultSettings.company
      && r.settings.functions == DefaultSettings.functions
      && r.settings.ui == DefaultSettings.ui
      && r.settings.users == DefaultSettings.users
      && r.settings.branding.logo == DefaultSettings.branding.logo
      && r.settings.branding.colors == PickersFor(DefaultSettings.branding.colors)
  {
    match LoadSettings(Page(DefaultSettings, slot, htmlPickers))
    case Err(_) => Page(DefaultSettings, slot, htmlPickers)
    case Ok(q) => q.(settings := ReadColors(q.settings, q.pickers))
  }

  /** With nothing stored, a fresh page holds the default record, except that the colours come
      back from the pickers in lower case. */
  lemma InitializeFresh(htmlPickers: Colors)
    ensures var r := Initialize(None, htmlPickers);
      && r.settings.company == DefaultSettings.company
      && r.settings.company.name == "Xyz Computers"
      && r.settings.functions == DefaultSettings.functions
      && r.settings.branding.logo.None?
      && r.settings.branding.colors == Colors("#0d6efd", "#6c757d", "#198754", "#ffc107")
  {
    DefaultPickers();
  }

  /** The pickers for the default colours hold them in lower case. */
  lemma DefaultPickers()
    ensures PickersFor(DefaultSettings.branding.colors) == Colors("#0d6efd", "#6c757d", "#198754", "#ffc107")
  {
    DefaultColorsPass();
    DefaultColorsLowered();
    var c := DefaultSettings.branding.colors;
    assert GetColor(c, Primary) == c.primary && GetColor(c, Secondary) == c.secondary;
    assert GetColor(c, Success) == c.success && GetColor(c, Warning) == c.warning;
  }

  lemma DefaultColorsLowered()
    ensures LowerCase(DefaultSettings.branding.colors.primary) == "#0d6efd"
    ensures LowerCase(DefaultSettings.branding.colors.secondary) == "#6c757d"
    ensures LowerCase(DefaultSettings.branding.colors.success) == "#198754"
    ensures LowerCase(DefaultSettings.branding.colors.warning) == "#ffc107"
  {
    assert DefaultSettings.branding.colors == DefaultColors;
    assert LowerCase("#0D6EFD") == "#0d6efd";
    assert LowerCase("#6C757D") == "#6c757d";
    assert LowerCase("#198754") == "#198754";
    assert LowerCase("#FFC107") == "#ffc107";
  }

  /** The page invariant: the pickers hold values an `<input type="color">` can hold. */
  predicate PickersSanitized(p: Page) {
    PickersFor(p.pickers) == p.pickers
  }

  /** Sanitizing a picker value twice is sanitizing it once. */
  lemma PickerValueIdempotent(v: string)
    ensures PickerValue(PickerValue(v)) == PickerValue(v)
  {
    if IsHexColor(v) {
      LowerCaseIdempotent(v);
    }
  }

  lemma PickersForIdempotent(c: Colors)
    ensures PickersFor(PickersFor(c)) == PickersFor(c)
  {
    PickerValueIdempotent(c.primary);
    PickerValueIdempotent(c.secondary);
    PickerValueIdempotent(c.success);
    PickerValueIdempotent(c.warning);
  }

  /** `saveSettings`: the settings are serialised into the slot. When the write throws (storage
      full or unavailable) the slot keeps its old content and an error toast is shown; either
      way the settings themselves are untouched. */
  function SaveSettings(p: Page, writeOk: bool): (r: Step)
    ensures r.page.settings == p.settings && r.page.pickers == p.pickers
    ensures writeOk ==> r.page.slot == Some(JsonText(Snapshot(p.settings)))
    ensures writeOk ==> r.toast == Some(Toast("Settings saved successfully!", SuccessToast))
    ensures !writeOk ==> r.page.slot == p.slot
    ensures !writeOk ==> r.toast == Some(Toast("Error saving settings!", ErrorToast))
  {
    if writeOk then
      Step(p.(slot := Some(JsonText(Snapshot(p.settings)))),
           Some(Toast("Settings saved successfully!", SuccessToast)))
    else
      Step(p, Some(Toast("Error saving settings!", ErrorToast)))
  }

  /** The save button: read the company form, the colour pickers and the UI form, then save. */
  function SaveClicked(p: Page, company: CompanyForm, ui: UiForm, writeOk: bool): (r: Step)
    ensures r.page.settings == ReadUi(ReadColors(ReadCompany(p.settings, company), p.pickers), ui)
    ensures r.page.settings.branding.colors == p.pickers
    ensures r.page.pickers == p.pickers
    ensures writeOk ==> r.page.slot == Some(JsonText(Snapshot(r.page.settings)))
    ensures !writeOk ==> r.page.slot == p.slot
  {
    var s := ReadUi(ReadColors(ReadCompany(p.settings, company), p.pickers), ui);
    SaveSettings(p.(settings := s), writeOk)
  }

  /** A successful save survives a page reload: loading the saved slot into a fresh page
      reproduces the settings that were saved. */
  lemma SaveSurvivesReload(p: Page, company: CompanyForm, ui: UiForm, htmlPickers: Colors)
    requires PickersSanitized(p)
    ensures var saved := SaveClicked(p, company, ui, true).page;
            Initialize(saved.slot, htmlPickers).settings == saved.settings
  {
    var saved := SaveClicked(p, company, ui, true).page;
    var q := Refresh(Merge(DefaultSettings, Snapshot(saved.settings)), saved.slot);
    MergeSnapshot(DefaultSettings, saved.settings);
    assert q.pickers == PickersFor(p.pickers);
    assert q.pickers == p.pickers;
  }

  /** `resetSettings` as written: after confirmation the slot is removed and `loadSettings` runs,
      which merges nothing into the CURRENT settings, so the in-memory settings stay what they
      were (the defaults only come back on the next page load). Without confirmation nothing
      happens. */
  function ResetSettings(p: Page, confirmed: bool): (r: Step)
    ensures !confirmed ==> r == Step(p, None)
    ensures confirmed ==> r.page.slot.None? && r.page.settings == p.settings
    ensures confirmed ==> r.toast == Some(Toast("Settings reset to default!", SuccessToast))
  {
    if !confirmed then Step(p, None)
    else
      var cleared := p.(slot := None);
      match LoadSettings(cleared)
      case Ok(q) => Step(q, Some(Toast("Settings reset to default!", SuccessToast)))
      case Err(_) => Step(cleared, None)
  }

  /** The as-written reset announces defaults but keeps changed settings: a page whose "hrm"
      function was switched on still has it on after a confirmed reset. */
  lemma ResetKeepsChangedSettings(htmlPickers: Colors)
    ensures var p := Page(ToggleFunction(DefaultSettings, "hrm"), None, htmlPickers);
            var r := ResetSettings(p, true);
            r.toast == Some(Toast("Settings reset to default!", SuccessToast))
            && r.page.settings != DefaultSettings
  {
    var p := Page(ToggleFunction(DefaultSettings, "hrm"), None, htmlPickers);
    var r := ResetSettings(p, true);
    assert "hrm" in DefaultSettings.functions && !DefaultSettings.functions["hrm"].enabled;
    assert r.page.settings.functions["hrm"].enabled;
  }

  /** A reset followed by a save writes the old settings back, so even a reload does not bring
      the defaults back. */
  lemma ResetThenSaveRestoresOld(p: Page, htmlPickers: Colors)
    requires p.settings.branding.colors == p.pickers && PickersSanitized(p)
    ensures var reset := ResetSettings(p, true).page;
            var saved := SaveSettings(reset, true).page;
            Initialize(saved.slot, htmlPickers).settings == p.settings
  {
    var reset := ResetSettings(p, true).page;
    var saved := SaveSettings(reset, true).page;
    MergeSnapshot(DefaultSettings, p.settings);
    assert reset.pickers == PickersFor(p.pickers) == p.pickers;
  }

  /** Reset as evidently intended: the slot is removed and the in-memory settings (and the form)
      return to the default record, so a later save persists the defaults. */
  function ResetToDefaults(p: Page, confirmed: bool): (r: Step)
    ensures !confirmed ==> r == Step(p, None)
    ensures confirmed ==> r.page.slot.None? && r.page.settings == DefaultSettings
    ensures confirmed ==> r.page.pickers == PickersFor(DefaultColors)
    ensures confirmed ==> r.toast == Some(Toast("Settings reset to default!", SuccessToast))
  {
    if !confirmed then Step(p, None)
    else Step(Refresh(DefaultSettings, None), Some(Toast("Settings reset to default!", SuccessToast)))
  }

  /** After the corrected reset, the in-memory settings equal what a fresh page load with an
      empty slot starts from, up to the case of the colours. */
  lemma ResetToDefaultsMatchesFreshLoad(p: Page, htmlPickers: Colors)
    ensures var r := ResetToDefaults(p, true).page;
            var initial := Initialize(None, htmlPickers);
            r.settings.company == initial.settings.company
            && r.settings.functions == initial.settings.functions
            && r.settings.ui == initial.settings.ui
            && r.pickers == initial.pickers
  {
  }

  /** The "clear all data" button: after confirmation every stored key is removed and the page
      reloads, so it comes back as a fresh page over an empty slot; without confirmation nothing
      happens. Unlike reset, this does bring the default record back. */
  function ClearAllData(p: Page, confirmed: bool, htmlPickers: Colors): (r: Step)
    ensures !confirmed ==> r == Step(p, None)
    ensures confirmed ==> r.page.slot.None?
    ensures confirmed ==> r.page.settings.company == DefaultSettings.company
    ensures confirmed ==> r.page.settings.functions == DefaultSettings.functions
    ensures confirmed ==> r.page.settings.branding.logo.None?
    ensures confirmed ==> r.page.settings.branding.colors == Colors("#0d6efd", "#6c757d", "#198754", "#ffc107")
    ensures confirmed ==> r.toast == Some(Toast("All data cleared!", SuccessToast))
  {
    if !confirmed then Step(p, None)
    else
      InitializeFresh(htmlPickers);
      Step(Initialize(None, htmlPickers), Some(Toast("All data cleared!", SuccessToast)))
  }

  /** `exportSettings`: the serialised settings, every top-level key present. */
  function ExportSettings(p: Page): (t: StoredText)
    ensures t.JsonText?
    ensures Merge(DefaultSettings, t.patch) == p.settings
  {
    MergeSnapshot(DefaultSettings, p.settings);
    JsonText(Snapshot(p.settings))
  }

  /** `importSettings` (file already read): text that parses is merged over the current
      settings with the same shallow merge as loading and the form is refreshed; text that does
      not parse (including an empty file) leaves the page exactly as it was. Import does not
      write the slot. */
  function ImportSettings(p: Page, text: StoredText): (r: Step)
    ensures r.page.slot == p.slot
    ensures text.JsonText? ==> r.page.settings == Merge(p.settings, text.patch)
    ensures text.JsonText? ==> r.toast == Some(Toast("Settings imported successfully!", SuccessToast))
    ensures !text.JsonText? ==> r.page == p
    ensures !text.JsonText? ==> r.toast == Some(Toast("Invalid settings file!", ErrorToast))
  {
    match text
    case JsonText(patch) =>
      Step(Refresh(Merge(p.settings, patch), p.slot), Some(Toast("Settings imported successfully!", SuccessToast)))
    case _ => Step(p, Some(Toast("Invalid settings file!", ErrorToast)))
  }

  /** Exporting one page and importing the file into any page reproduces the exported settings. */
  lemma ExportImportRoundTrip(p: Page, q: Page)
    ensures ImportSettings(q, ExportSettings(p)).page.settings == p.settings
  {
    MergeSnapshot(q.settings, p.settings);
  }

  /** Every page operation that refreshes the form leaves pickers a colour input can hold. */
  lemma RefreshSanitizes(s: Settings, slot: Option<StoredText>)
    ensures PickersSanitized(Refresh(s, slot))
  {
    PickersForIdempotent(s.branding.colors);
  }

  /** Save, reset, import and load keep the pickers holding values a colour input can hold. */
  lemma StoreOperationsKeepPickersSanitized(
    p: Page, company: CompanyForm, ui: UiForm, ok: bool, text: StoredText)
    requires PickersSanitized(p)
    ensures PickersSanitized(SaveClicked(p, company, ui, ok).page)
    ensures PickersSanitized(ResetSettings(p, ok).page)
    ensures PickersSanitized(ResetToDefaults(p, ok).page)
    ensures PickersSanitized(ImportSettings(p, text).page)
    ensures LoadSettings(p).Ok? ==> PickersSanitized(LoadSettings(p).value)
  {
    SaveAndResetKeepPickersSanitized(p, company, ui, ok);
    ImportAndLoadKeepPickersSanitized(p, text);
  }

  lemma SaveAndResetKeepPickersSanitized(p: Page, company: CompanyForm, ui: UiForm, ok: bool)
    requires PickersSanitized(p)
    ensures PickersSanitized(SaveClicked(p, company, ui, ok).page)
    ensures PickersSanitized(ResetSettings(p, ok).page)
    ensures PickersSanitized(ResetToDefaults(p, ok).page)
  {
    RefreshSanitizes(p.settings, None);
    RefreshSanitizes(DefaultSettings, None);
  }

  lemma ImportAndLoadKeepPickersSanitized(p: Page, text: StoredText)
    requires PickersSanitized(p)
    ensures PickersSanitized(ImportSettings(p, text).page)
    ensures LoadSettings(p).Ok? ==> PickersSanitized(LoadSettings(p).value)
  {
    if text.JsonText? {
      RefreshSanitizes(Merge(p.settings, text.patch), p.slot);
    }
    if LoadSettings(p).Ok? {
      RefreshSanitizes(LoadSettings(p).value.settings, p.slot);
    }
  }

  /** Colour picker input keeps the pickers holding values a colour input can hold. */
  lemma PickerInputKeepsPickersSanitized(p: Page, slot: ColorSlot, v: string)
    requires PickersSanitized(p)
    ensures var c := OnPickerInput(p.settings, p.pickers, slot, v);
            PickersSanitized(Page(c.settings, p.slot, c.pickers))
  {
    var c := OnPickerInput(p.settings, p.pickers, slot, v);
    PickerValueIdempotent(v);
    forall other ensures GetColor(PickersFor(c.pickers), other) == GetColor(c.pickers, other) {
      if other != slot {
        assert GetColor(PickersFor(p.pickers), other) == GetColor(p.pickers, other);
      }
    }
    assert PickersFor(c.pickers).primary == GetColor(PickersFor(c.pickers), Primary);
    assert PickersFor(c.pickers).secondary == GetColor(PickersFor(c.pickers), Secondary);
    assert PickersFor(c.pickers).success == GetColor(PickersFor(c.pickers), Success);
    assert PickersFor(c.pickers).warning == GetColor(PickersFor(c.pickers), Warning);
  }
}

=== FILE: text.dfy ===
/**
 * The JavaScript string primitives the scripts rely on: `String.prototype.trim`,
 * the regular-expression class `\s`, ASCII case conversion and `length`
 * (which counts UTF-16 code units).
 */
module Text {

  /** The code points of ECMA-262's WhiteSpace and LineTerminator productions:
      exactly what `trim` strips and what `\s` matches. */
  predicate IsWhitespace(c: char) {
    var n := c as int;
    n == 0x09 || n == 0x0A || n == 0x0B || n == 0x0C || n == 0x0D || n == 0x20
    || n == 0xA0 || n == 0x1680 || (0x2000 <= n <= 0x200A)
    || n == 0x2028 || n == 0x2029 || n == 0x202F || n == 0x205F
    || n == 0x3000 || n == 0xFEFF
  }

  /** Every character of `s` is whitespace (true of the empty string). */
  predicate AllWhitespace(s: string) {
    forall k :: 0 <= k < |s| ==> IsWhitespace(s[k])
  }

  /** No character of `s` is whitespace. */
  predicate NoWhitespace(s: string) {
    forall k :: 0 <= k < |s| ==> !IsWhitespace(s[k])
  }

  /** Drops the leading whitespace: the result is a suffix of `s`, only whitespace was dropped,
      and the result does not start with whitespace. */
  function TrimStart(s: string): (r: string)
    ensures |r| <= |s| && r == s[|s| - |r|..]
    ensures AllWhitespace(s[..|s| - |r|])
    ensures r != [] ==> !IsWhitespace(r[0])
    decreases |s|
  {
    if s != [] && IsWhitespace(s[0]) then
      var t := TrimStart(s[1..]);
      assert s[..|s| - |t|] == [s[0]] + s[1..][..|s| - 1 - |t|];
      t
    else s
  }

  /** Drops the trailing whitespace: the result is a prefix of `s`, only whitespace was dropped,
      and the result does not end with whitespace. */
  function TrimEnd(s: string): (r: string)
    ensures |r| <= |s| && r == s[..|r|]
    ensures AllWhitespace(s[|r|..])
    ensures r != [] ==> !IsWhitespace(r[|r| - 1])
    decreases |s|
  {
    if s != [] && IsWhitespace(s[|s| - 1]) then
      var t := TrimEnd(s[..|s| - 1]);
      assert s[|t|..] == s[..|s| - 1][|t|..] + [s[|s| - 1]];
      t
    else s
  }

  /** `String.prototype.trim`: the part of `s` between its leading and its trailing
      whitespace. */
  function Trim(s: string): (r: string)
    ensures |r| <= |s|
    ensures r != [] ==> !IsWhitespace(r[0]) && !IsWhitespace(r[|r| - 1])
    ensures r == [] <==> AllWhitespace(s)
    ensures NoWhitespace(s) ==> r == s
  {
    TrimFacts(s);
    TrimEnd(TrimStart(s))
  }

  /** `trim` returns the slice of `s` that starts where the leading whitespace ends; only
      whitespace lies on either side of it. */
  lemma {:induction false} TrimSlice(s: string)
    ensures var i := |s| - |TrimStart(s)|;
      var r := Trim(s);
      && i + |r| <= |s|
      && (forall k :: 0 <= k < |r| ==> r[k] == s[i + k])
      && (forall k :: 0 <= k < i ==> IsWhitespace(s[k]))
      && (forall k :: i + |r| <= k < |s| ==> IsWhitespace(s[k]))
  {
    var a := TrimStart(s);
    var r := TrimEnd(a);
    PrefixOfSuffix(s, a, r);
  }

  /** A prefix `r` of a suffix `a` of `s`, where only whitespace was cut off on either side,
      sits in `s` right after the cut-off prefix. */
  lemma {:induction false} PrefixOfSuffix(s: string, a: string, r: string)
    requires |a| <= |s| && a == s[|s| - |a|..] && AllWhitespace(s[..|s| - |a|])
    requires |r| <= |a| && r == a[..|r|] && AllWhitespace(a[|r|..])
    ensures var i := |s| - |a|;
      && i + |r| <= |s|
      && (forall k :: 0 <= k < |r| ==> r[k] == s[i + k])
      && (forall k :: 0 <= k < i ==> IsWhitespace(s[k]))
      && (forall k :: i + |r| <= k < |s| ==> IsWhitespace(s[k]))
  {
    var i := |s| - |a|;
    forall k | 0 <= k < i ensures IsWhitespace(s[k]) {
      assert s[k] == s[..i][k];
    }
    forall k | i + |r| <= k < |s| ensures IsWhitespace(s[k]) {
      assert s[k] == a[k - i];
      assert a[k - i] == a[|r|..][k - i - |r|];
    }
  }

  lemma {:induction false} TrimFacts(s: string)
    ensures var r := TrimEnd(TrimStart(s));
      && (r != [] ==> !IsWhitespace(r[0]))
      && (r == [] <==> AllWhitespace(s))
      && (NoWhitespace(s) ==> r == s)
  {
    TrimFirst(s);
    TrimEmpty(s);
    TrimUntouched(s);
  }

  lemma {:induction false} TrimFirst(s: string)
    ensures var r := TrimEnd(TrimStart(s)); r != [] ==> !IsWhitespace(r[0])
  {
    var a := TrimStart(s);
    var r := TrimEnd(a);
    if r != [] {
      assert r[0] == a[0];
    }
  }

  lemma {:induction false} TrimEmpty(s: string)
    ensures TrimEnd(TrimStart(s)) == [] <==> AllWhitespace(s)
  {
    var a := TrimStart(s);
    EmptyPrefixOfSuffix(s, a, TrimEnd(a));
  }

  /** With `a` and `r` as in `PrefixOfSuffix`, and `a` not starting with whitespace, `r` is
      empty exactly when `s` is all whitespace. */
  lemma {:induction false} EmptyPrefixOfSuffix(s: string, a: string, r: string)
    requires |a| <= |s| && a == s[|s| - |a|..] && AllWhitespace(s[..|s| - |a|])
    requires a != [] ==> !IsWhitespace(a[0])
    requires |r| <= |a| && r == a[..|r|] && AllWhitespace(a[|r|..])
    ensures r == [] <==> AllWhitespace(s)
  {
    if r == [] {
      assert a == a[|r|..];
      assert a == [];
      assert s == s[..|s| - |a|];
    } else {
      assert r[0] == a[0];
      assert a[0] == s[|s| - |a|];
    }
  }

  lemma {:induction false} TrimUntouched(s: string)
    ensures NoWhitespace(s) ==> TrimEnd(TrimStart(s)) == s
  {
    if NoWhitespace(s) && s != [] {
      var a := TrimStart(s);
      assert !IsWhitespace(s[0]);
      assert a == s;
      assert !IsWhitespace(a[|a| - 1]);
    }
  }

  /** Lower-casing is idempotent. */
  lemma LowerCaseIdempotent(s: string)
    ensures LowerCase(LowerCase(s)) == LowerCase(s)
  {
  }

  /** A string is blank when `trim` leaves nothing, i.e. `!s.trim()` holds in JavaScript. */
  predicate IsBlank(s: string) {
    Trim(s) == []
  }

  /** Trimming twice is trimming once. */
  lemma {:induction false} TrimIdempotent(s: string)
    ensures Trim(Trim(s)) == Trim(s)
  {
    var t := Trim(s);
    if t != [] {
      var a := TrimStart(t);
      assert a == t;
      var b := TrimEnd(a);
      assert b == t;
    }
  }

  /** `toUpperCase` on one character, restricted to ASCII. */
  function AsciiUpper(c: char): (r: char)
    ensures 'a' <= c <= 'z' ==> 'A' <= r <= 'Z' && r as int == c as int - 32
    ensures !('a' <= c <= 'z') ==> r == c
  {
    if 'a' <= c <= 'z' then (c as int - 32) as char else c
  }

  /** ASCII lower-casing of one character. */
  function AsciiLower(c: char): (r: char)
    ensures 'A' <= c <= 'Z' ==> 'a' <= r <= 'z' && r as int == c as int + 32
    ensures !('A' <= c <= 'Z') ==> r == c
  {
    if 'A' <= c <= 'Z' then (c as int + 32) as char else c
  }

  /** ASCII lower-casing of a string, character by character. */
  function LowerCase(s: string): (r: string)
    ensures |r| == |s|
    ensures forall k :: 0 <= k < |s| ==> r[k] == AsciiLower(s[k])
  {
    seq(|s|, k requires 0 <= k < |s| => AsciiLower(s[k]))
  }

  /** ASCII upper-casing of a string, character by character. */
  function UpperCase(s: string): (r: string)
    ensures |r| == |s|
    ensures forall k :: 0 <= k < |s| ==> r[k] == AsciiUpper(s[k])
  {
    seq(|s|, k requires 0 <= k < |s| => AsciiUpper(s[k]))
  }

  /** Number of UTF-16 code units of one character. */
  function Utf16Units(c: char): nat {
    if c as int > 0xFFFF then 2 else 1
  }

  /** JavaScript's `length`: characters outside the Basic Multilingual Plane count twice. */
  function Utf16Length(s: string): (r: nat)
    ensures |s| <= r <= 2 * |s|
    ensures (forall k :: 0 <= k < |s| ==> s[k] as int <= 0xFFFF) ==> r == |s|
  {
    if s == [] then 0 else Utf16Units(s[0]) + Utf16Length(s[1..])
  }
}

=== FILE: wrappers.dfy ===
/** Optional values and success/error results used across the model. */
module Wrappers {

  /** A value that may be absent: a JSON key the object does not carry, a file the user did not pick. */
  datatype Option<+T> = None | Some(value: T) {

    /** The carried value, or `default` when there is none. */
    function GetOr(default: T): T {
      match this
      case Some(v) => v
      case None => default
    }
  }

  /** The outcome of an operation that may fail with an error value instead of throwing. */
  datatype Result<+T, +E> = Ok(value: T) | Err(error: E)
}
